=== FILE: README.md ===
# Toxidoc objects manager, in Dafny

Toxidoc walks C++ headers with libclang. It records every documentable declaration as an `Object`, numbers overloads, and writes a Doxygen comment stub above each declaration that has no comment yet. This project models the `ObjectsManager` component that does this, as immutable datatypes and pure functions:

- `Objects` (object.dfy): the `Object` record and its kind and state enums. It also covers the kind-name table, identity (`operator==`), the documented test (`isValid`), the field-by-field merge (`updateObject`), and the JSON-shaped serialise/deserialise pair.
- `Json` (json.dfy): the JSON value shapes the (de)serialiser distinguishes.
- `Cursors` (cursor.dfy): libclang's cursor tree as a datatype. Each cursor carries its location flags, kind, annotation spellings, name, extent, comments, argument names, result type and children.
- `ObjectsManager` (manager.dfy): the manager's configuration and state, and the `visitor`. The visitor classifies a cursor, filters it against the kinds and words blacklists, builds its object and chooses `Continue` (prune) or `Recurse` (descend). The module also has the pre-order walk over the tree and `processHeaderFile`.
- `Overloads` (overloads.dfy): `setOverloadCounter`, which numbers objects that share a name.
- `DocGen` (docgen.dfy): `getDocForObject` (the stub text) and the selection and grouping done by `generateDocumentation`.
- `Strings` and `Optional` (strings.dfy, option.dfy): `std::string::contains`, runs of spaces, and an option type.

Points where the code's behaviour is easy to misread:

- The overload index is 1-based. It groups objects by name alone, across every object accumulated so far (all files, all kinds). The `else` branch of the numbering loop, which restarts a counter at 0, is unreachable: every name gets a counter before the loop.
- `Object.cpp` defines the field constructor without the return-type parameter that `Object.hpp` declares and the visitor passes. The model follows the declaration and the call site, so the return type is stored.
- The visitor creates objects in state `Unchanged`. The overload index is a placeholder 0 until `setOverloadCounter` assigns it.

## Model

| member | source | states |
|---|---|---|
| Objects.AllTypesComplete | src/ObjectsManager/Object.hpp:13-26 | The object kind enum is closed: twelve distinct kinds and no others. |
| Objects.StringMapAgrees | src/ObjectsManager/Object.hpp:31-44 | The kind-name table covers every kind, so `.at` never fails. It agrees with `getObjectTypeAsString`, and no two kinds share a name. |
| Objects.TypeToString | src/ObjectsManager/Object.cpp:126-142 | Every kind has a non-empty name, and parsing that name gives the kind back. |
| Objects.TypeFromString | src/ObjectsManager/Object.cpp:144-169 | A string parses to a known kind only when the kind-name table gives it that name; it parses to `Unknown` only when no known kind has that name. |
| Objects.TypeStringRoundTrip | src/ObjectsManager/Object.cpp:126-169 | Parsing a kind's name gives the kind back. |
| Objects.TypeFromStringExact | src/ObjectsManager/Object.cpp:144-168 | A string parses to a given known kind if and only if it is that kind's name. |
| Objects.UnrecognisedIsUnknown | src/ObjectsManager/Object.cpp:144-168 | A string that names no known kind parses to `Unknown`. |
| Objects.AllStatesComplete | src/ObjectsManager/Object.hpp:49 | The state enum has exactly four states. |
| Objects.StateToString | src/ObjectsManager/Object.cpp:76-84 | Every state gets one of the four names "Unchanged", "Modified", "Added", "Removed"; the "Unknown" fallback is unreachable. |
| Objects.StateStringInjective | src/ObjectsManager/Object.cpp:76-84 | Two states have the same name only if they are the same state, so a state name reads back to its state. |
| Objects.Same | src/ObjectsManager/Object.cpp:39-42 | Two objects are equal under `operator==` exactly when one becomes the other by overwriting only its locations, comments, arguments, return type and state. |
| Objects.SameIgnoresContent | src/ObjectsManager/Object.cpp:39-42 | Equality looks only at path, name, kind and overload index. Changing locations, comments, arguments, return type or state keeps an object equal to itself. |
| Objects.SameIsEquivalence | src/ObjectsManager/Object.cpp:39-42 | Object equality is reflexive, symmetric and transitive. |
| Objects.UpdateTakesValidity | src/ObjectsManager/Object.cpp:44-72 | A merged object is documented exactly when the incoming object is, because the merge takes the incoming brief. |
| Objects.IsModified | src/ObjectsManager/Object.cpp:50-57 | The helper always yields the incoming value. The flag ends up raised exactly when it was already raised or the values differ. |
| Objects.UpdateObject | src/ObjectsManager/Object.cpp:59-72 | After a merge the path, name, kind, locations, comments and arguments are the incoming ones; overload index and return type are kept. The state becomes `Modified` exactly when it was `Modified`, or it was `Unchanged` and path, name, kind, raw comment, brief or arguments differed. |
| Objects.UpdateKeepsSettledState | src/ObjectsManager/Object.cpp:71 | An `Added`, `Modified` or `Removed` object keeps its state through any merge. |
| Objects.UpdateLocationOnly | src/ObjectsManager/Object.cpp:64-71 | A merge that changes only the four location fields leaves the state alone. |
| Objects.UpdateIdempotent | src/ObjectsManager/Object.cpp:59-72 | Merging the same incoming object twice gives the same result as merging it once. |
| Objects.UpdateKeepsIdentity | src/ObjectsManager/Object.cpp:59-72 | When the overload indices agree, the merged object equals the incoming one under `operator==`. |
| Objects.ToJson | src/ObjectsManager/Object.cpp:110-124 | The serialised object is a JSON object without "return_type" or "state" keys. |
| Objects.FromJson | src/ObjectsManager/Object.cpp:19-37 | A non-object JSON value sets no field: strings and the argument list stay empty, scalars keep their uninitialised values. The return type is always empty. |
| Objects.JsonRoundTrip | src/ObjectsManager/Object.cpp:19-37 | Deserialising a serialised object gives the same object except for the return type and the state, whatever the uninitialised members held. The result is equal to the original under `operator==`. |
| Json.StringArrayRoundTrip | src/ObjectsManager/Object.cpp:32-36 | Reading the strings back from an array of strings gives the original argument list. |
| Overloads.SetOverloadCounter | src/ObjectsManager/ObjectsManager.cpp:269-287 | Numbering keeps the list length and order, and changes no field except the overload index. |
| Overloads.NumberZeroAtFirst | src/ObjectsManager/ObjectsManager.cpp:276-287 | The numbering loop gives index 0 exactly at the first occurrence of a name that has no counter yet. Every later occurrence, and every name that already has a counter, gets at least 1. |
| Overloads.NumberCounts | src/ObjectsManager/ObjectsManager.cpp:276-287 | At every step of the loop, each pending name's counter equals the number of times that name has occurred so far. |
| Overloads.OverloadIndexIsOccurrence | src/ObjectsManager/ObjectsManager.cpp:269-287 | An object's index is the number of same-named objects up to and including it: the k-th occurrence of a name gets k. |
| Overloads.IndexWithinCount | src/ObjectsManager/ObjectsManager.cpp:269-287 | Every index lies between 1 and the number of objects with that name. |
| Overloads.IndexReached | src/ObjectsManager/ObjectsManager.cpp:269-287 | Every number from 1 to the number of objects with a name is the index of one of them. |
| Overloads.OverloadIndicesDense | src/ObjectsManager/ObjectsManager.cpp:269-287 | N objects that share a name receive exactly the indices 1..N. |
| Overloads.OverloadKeysUnique | src/ObjectsManager/ObjectsManager.cpp:269-287 | After numbering, an earlier same-named object has a smaller index, so no two positions are equal under `operator==`. |
| Overloads.OverloadIdempotent | src/ObjectsManager/ObjectsManager.cpp:270-274 | Numbering twice gives the same result as numbering once. |
| ObjectsManager.ModuleForFileName | src/ObjectsManager/ObjectsManager.cpp:27-35 | A file name selects a module exactly when the modules table lists it, and it selects the module the table gives for it. |
| ObjectsManager.OnlyQtOverrideRecognised | src/ObjectsManager/ObjectsManager.hpp:22-33 | Only "qt_override.h" is recognised, and it selects `QtOverride`. There are exactly two module types. |
| ObjectsManager.FileName | src/ObjectsManager/ObjectsManager.cpp:28 | The file name is the part of the path after its last `/`, and it holds no `/`. |
| ObjectsManager.NativeTableExact | src/ObjectsManager/ObjectsManager.cpp:195-210 | The native table sends exactly the unnamed cursor kinds to `Unknown`. It is one-to-one on the eleven named kinds and reaches every kind but `Unknown`. |
| ObjectsManager.ApplyAnnotations | src/ObjectsManager/ObjectsManager.cpp:168-191 | The annotation loop yields `Method` exactly when some annotation is `qt_invokable`; otherwise the kind is unchanged. |
| ObjectsManager.Classify | src/ObjectsManager/ObjectsManager.cpp:164-210 | Under the Qt module, or on a method or free function, a `qt_invokable` annotation makes the kind `Method`. Otherwise the native table decides. |
| ObjectsManager.OtherAnnotationsIgnored | src/ObjectsManager/ObjectsManager.cpp:176-185 | Annotations other than `qt_invokable` (such as `qt_signal`, `qt_slot`) never change the kind. |
| ObjectsManager.TypeName | src/ObjectsManager/ObjectsManager.cpp:212-213 | The name looked up in the kinds table for the blacklist test is the kind's string name. |
| ObjectsManager.Visitor | src/ObjectsManager/ObjectsManager.cpp:143-267 | The visitor yields an object exactly when the cursor is in the current file, of known kind, and in neither blacklist. It prunes exactly when the cursor is outside the file, its kind is blacklisted, or a known-kind cursor's name is blacklisted. The object carries the current path, the cursor's name, extent, comments and result type, state `Unchanged`, and argument names only for function-like kinds. |
| ObjectsManager.OutsideFilePrunes | src/ObjectsManager/ObjectsManager.cpp:144-161 | A cursor outside the main file, without a file, or in another file contributes no object, and neither does anything below it. |
| ObjectsManager.BlacklistedPrunes | src/ObjectsManager/ObjectsManager.cpp:212-230 | A cursor contributes nothing, and neither does its subtree, when its kind name is blacklisted, or when its kind is known and its name contains a blacklisted word. The words test does not apply to a cursor of unknown kind. |
| ObjectsManager.UnknownDescends | src/ObjectsManager/ObjectsManager.cpp:212-266 | A cursor of the current file whose kind is unknown yields no object, and its children are still walked, provided "Unknown" is not in the kinds blacklist. |
| ObjectsManager.AcceptedComesFirst | src/ObjectsManager/ObjectsManager.cpp:262-266 | An accepted cursor's object comes before those of its descendants (pre-order). |
| ObjectsManager.BuildObject | src/ObjectsManager/ObjectsManager.cpp:232-264 | An object built from a cursor is documented exactly when the cursor's brief comment is non-empty. It has argument names only when its kind is function-like. |
| ObjectsManager.VisitCursor | src/ObjectsManager/ObjectsManager.cpp:232-266 | Every object the walk of one cursor's tree appends is well built: current file path, state `Unchanged`, a known kind that is not blacklisted, a name with no blacklisted word, and argument names only for function-like kinds. |
| ObjectsManager.VisitChildren | src/ObjectsManager/ObjectsManager.cpp:49-55 | The same holds for the walk over a list of sibling cursors. |
| ObjectsManager.VisitSound | src/ObjectsManager/ObjectsManager.cpp:232-264 | Every object the walk appends was built from an accepted cursor of the tree. It has the current file path, state `Unchanged` and a known, non-blacklisted kind and name, with argument names only for function-like kinds. |
| ObjectsManager.VisitChildrenSound | src/ObjectsManager/ObjectsManager.cpp:49-55 | Every object the walk over sibling cursors appends was built from an accepted cursor of one of their trees and is well built. |
| ObjectsManager.NoFilterWalksAll | src/ObjectsManager/ObjectsManager.cpp:143-267 | With empty blacklists and a tree wholly in the current file, the walk yields an object for every cursor of known kind, in pre-order. |
| ObjectsManager.NoFilterWalksAllChildren | src/ObjectsManager/ObjectsManager.cpp:49-55 | The same holds for a list of sibling trees. |
| ObjectsManager.DefaultsFilterNothing | src/ObjectsManager/ObjectsManager.hpp:47-48 | With the constructor's defaults, every known-kind cursor of the current file yields an object and is descended. |
| ObjectsManager.EmptyWordBlocksAll | src/ObjectsManager/ObjectsManager.cpp:229-230 | An empty entry in the words blacklist matches every name, so no object is ever built. |
| ObjectsManager.VisitColumns | src/ObjectsManager/ObjectsManager.cpp:216-222 | Objects built from a tree with 1-based columns have start column at least 1. |
| ObjectsManager.SelectModule | src/ObjectsManager/ObjectsManager.cpp:26-36 | The module type becomes `QtOverride` exactly when the module path is non-empty, exists and is named "qt_override.h". In every other case it is left as it was. |
| ObjectsManager.ProcessHeaderFile | src/ObjectsManager/ObjectsManager.cpp:19-61 | Fails with the index error when no index exists, changing nothing. Fails with the parse error naming the file when parsing fails; the module type is then the one the module path selects, and nothing else changes. Succeeds exactly otherwise, with the blacklists and module path kept. On success the module type is the one the module path selects. The list is the earlier objects followed by the objects the walk of the tree finds, in walk order, each changed only in its overload index. New objects are well built for the file. Every object's index is the number of objects with its name up to and including it, so no two same-named objects are equal. |
| ObjectsManager.WalkAndNumber | src/ObjectsManager/ObjectsManager.cpp:46-59 | After walking and numbering, the list is the earlier objects followed by the walk's objects, each changed only in its overload index. Appended objects are well built. Every index is the occurrence number of its name, and identity keys are distinct. |
| Strings.ContainsIffOccurs | src/ObjectsManager/ObjectsManager.cpp:229-230 | The substring test holds exactly when the word occurs at some position of the name. |
| Strings.EmptyWordEverywhere | src/ObjectsManager/ObjectsManager.cpp:229-230 | Every name contains the empty word. |
| DocGen.DocMapOnlyClass | src/ObjectsManager/ObjectsManager.hpp:27-29 | Only classes have a tag, and it is "@class". |
| DocGen.GetDocForObject | src/ObjectsManager/ObjectsManager.cpp:112-141 | The stub is a line break, then each stub line indented by `columnOffset - 1` spaces and ended by a line break, then the indent again. |
| DocGen.DocTextLayout | src/ObjectsManager/ObjectsManager.cpp:114-140 | The same layout holds for any indent. |
| DocGen.DocLinesSections | src/ObjectsManager/ObjectsManager.cpp:117-138 | The indented lines are the opening, the class tag section, the argument section and the closing line, in that order. |
| DocGen.NoReturnSection | src/ObjectsManager/ObjectsManager.cpp:133-137 | The return section is always empty, because the serialised object has no "return_type" key. |
| DocGen.DocFrame | src/ObjectsManager/ObjectsManager.cpp:114-139 | The stub starts with a line break and ends with the indent, so the declaration keeps its column. |
| DocGen.DocArgLines | src/ObjectsManager/ObjectsManager.cpp:129-132 | There is one " * @arg name" line per argument, in argument order, right after the separator that follows the class section. |
| DocGen.DocLineShape | src/ObjectsManager/ObjectsManager.cpp:117-138 | Every stub line is a fixed line, the class line (fourth line, classes only), or an argument line. |
| DocGen.DocClassLine | src/ObjectsManager/ObjectsManager.cpp:120-128 | A "@class" line appears if and only if the object is a class. |
| DocGen.DocNoReturnLine | src/ObjectsManager/ObjectsManager.cpp:133-137 | No stub has a "@return" line. |
| DocGen.DocEveryLineIndented | src/ObjectsManager/ObjectsManager.cpp:116-139 | After every line break of the stub come `columnOffset - 1` spaces, provided the name and arguments hold no line break. |
| DocGen.DocTextIndented | src/ObjectsManager/ObjectsManager.cpp:116-139 | The same indentation holds for any indent without line breaks. |
| DocGen.ArgumentsFromJson | src/ObjectsManager/ObjectsManager.cpp:129-131 | The argument list the stub reads back from the serialised object is the object's own argument list. |
| DocGen.NeedsStub | src/ObjectsManager/ObjectsManager.cpp:93 | The test on the serialised object selects an object exactly when both its brief and its raw comment are empty. |
| DocGen.InFile | src/ObjectsManager/ObjectsManager.cpp:65 | A file's group holds exactly the objects of that file. |
| DocGen.InFileAppend | src/ObjectsManager/ObjectsManager.cpp:64-65 | Grouping a concatenation gives the two groups joined, so a group keeps list order. |
| DocGen.InFileCount | src/ObjectsManager/ObjectsManager.cpp:64-65 | A file's group has one entry per position of that file in the list, so duplicates are kept. |
| DocGen.GroupByFile | src/ObjectsManager/ObjectsManager.cpp:64-65 | The keys are exactly the objects' paths. Each group is non-empty and is the objects of that path in list order. |
| DocGen.Undocumented | src/ObjectsManager/ObjectsManager.cpp:91-93 | The objects selected for a stub are exactly those that need one, and never more than the file has. |
| DocGen.UndocumentedAppend | src/ObjectsManager/ObjectsManager.cpp:91-93 | Selecting from a concatenation gives the two selections joined, so list order is kept. |
| DocGen.StubsFor | src/ObjectsManager/ObjectsManager.cpp:91-103 | A file gets at most one stub per object. |
| DocGen.StubsForAppend | src/ObjectsManager/ObjectsManager.cpp:91-103 | The stubs of a concatenation are the stubs of each part, joined: stubs follow list order. |
| DocGen.StubsForCount | src/ObjectsManager/ObjectsManager.cpp:91-103 | A file gets exactly as many stubs as it has objects that need one, duplicates included. |
| DocGen.StubsForExact | src/ObjectsManager/ObjectsManager.cpp:91-103 | A stub is produced for a file's objects exactly when some object needs one. The stub sits at that object's start line and column and holds its stub text. |
| DocGen.GenerateDocumentation | src/ObjectsManager/ObjectsManager.cpp:63-108 | The result has an entry exactly for each path of some object that is not unavailable. Each entry is the stubs of that file's objects, in list order. |
| DocGen.GenerateSelectsUndocumented | src/ObjectsManager/ObjectsManager.cpp:63-108 | For a file that can be opened, a stub appears exactly when some object of that file has neither brief nor raw comment. It sits at that object's start line and column with its stub text. Unavailable files get nothing. |

## Left out

- libclang is not called. The translation unit becomes a `Cursor` tree, and index creation and parse failure become the `Frontend` inputs. So `processHeaderFile` takes the tree instead of parsing, and the `-include` of the module header reaches the model only through the annotations in the tree.
- `fs::weakly_canonical` path comparison and `fs::exists` are not modelled. They are filesystem semantics and become the cursor's `fileMatches` flag and the `modPathExists` input. `path.filename()` is taken as the text after the last `/`.
- The rewriter is not modelled. `generateDocumentation` returns, per file, the stubs with their insertion line and column; inserting them and overwriting files is file I/O.
- Files whose index, parse or rewriter creation fails are a given set, `unavailable`. The model does not derive them.
- spdlog logging and the processed-objects count are left out, because they produce no state.
- nlohmann JSON is not modelled as text. A JSON value is a datatype with only the kinds the code tests for.
- Objects.Same: a file path is modelled as its string and compared character by character. `fs::path` equality compares path elements, so paths that differ only in redundant separators ("src//a.h" and "src/a.h") are equal in the code and different here.
- Objects.IsModified: for the file path the comparison is the string comparison above. Where `fs::path` equality would call two spellings equal, the code keeps the current spelling and raises no flag, while the model takes the incoming one and raises the flag. Objects.UpdateObject inherits this.
- Integer widths are not modelled: line, column and index are `size_t`/`uintmax_t` in the code and `nat` here, with no wrap-around.
- DocGen.GetDocForObject: requires `columnOffset >= 1`. The code computes `columnOffset - 1` in `size_t`, and at 0 that wraps to a length no string can have.
- DocGen.GenerateDocumentation: requires a start column of at least 1 for every object that needs a stub, since only those reach `getDocForObject`. Objects extracted from cursor trees with 1-based columns have one (`ObjectsManager.VisitColumns`). `StubsFor` and the stub lemmas carry the same precondition.
- Objects.FromJson: members the JSON constructor leaves default-initialised (kind, index, locations, state) take their values from an `Uninitialised` parameter, because C++ gives them indeterminate content.
- `getObjectAsString`, `getObjectPathAsString` and the trivial getters and setters are not modelled separately. They are diagnostic formatting or plain field access, and the record's fields stand for them.
- Comparing a previous snapshot with the current object list (marking objects `Added` or `Removed`) is not part of this model. No such loop appears in the modelled files, and `src/FilesManager` (which saves and loads objects) is not part of this model.
- `src/ObjectManager`, `src/HeaderObject` and `src/HeaderManager` are left out: they are earlier versions of the same component. `src/Toxidoc.cpp` (command line), `src/Utils.hpp` (terminal output) and `mods/qt_override.h` (macros that only supply annotation strings) are left out too.
- The order in which `generateDocumentation` visits files (a `std::map` ordered by path) is not modelled. The result is a map from path to stubs, and each file's stubs keep list order.

=== FILE: cursor.dfy ===
/**
 What the parsing front end reports about one declaration: a cursor of the
 parsed translation unit, with its children. The file-system questions the
 visitor asks (is the location in the main file, does it resolve to a file,
 is that file the one being processed once both paths are made canonical)
 are answered by flags here rather than computed.
 */
module Cursors {

  /** The native cursor kinds the visitor distinguishes; every other kind is `OtherKind`. */
  datatype CursorKind =
    | FunctionDecl
    | CxxMethod
    | ConstructorDecl
    | DestructorDecl
    | FunctionTemplateDecl
    | ClassDecl
    | StructDecl
    | EnumDecl
    | VarDecl
    | NamespaceDecl
    | MacroDefinition
    | OtherKind(code: int)

  datatype Cursor = Cursor(
    fromMainFile: bool,
    hasFile: bool,
    fileMatches: bool,
    kind: CursorKind,
    annotations: seq<string>,
    name: string,
    startLine: nat,
    startColumn: nat,
    endLine: nat,
    endColumn: nat,
    rawComment: string,
    briefComment: string,
    argumentNames: seq<string>,
    resultType: string,
    children: seq<Cursor>)

  /** The front end reports 1-based columns, at every level of the tree. */
  predicate WellFormed(c: Cursor)
    decreases c
  {
    && c.startColumn >= 1
    && forall i :: 0 <= i < |c.children| ==> WellFormed(c.children[i])
  }

  /** Every cursor of a list of trees is well formed. */
  predicate AllWellFormed(cs: seq<Cursor>) {
    forall i :: 0 <= i < |cs| ==> WellFormed(cs[i])
  }
}

=== FILE: docgen.dfy ===
/**
 The documentation side of the objects manager: the Doxygen comment stub
 written above an undocumented declaration, and the choice of which
 objects receive one, grouped by file.
 */
module DocGen {
  import opened Strings
  import opened Optional
  import opened Json
  import opened Objects

  /** The kinds that get a tag line in a stub, with their tag. */
  const ObjectTypeStringDocMap: map<ObjectType, string> := map[Class := "@class"]

  /** Only classes have a tag, and it is "@class". */
  lemma DocMapOnlyClass(t: ObjectType)
    ensures t in ObjectTypeStringDocMap <==> t == Class
    ensures t in ObjectTypeStringDocMap ==> ObjectTypeStringDocMap[t] == "@class"
  {
  }

  /** One " * @arg name" line per argument, each prefixed by the indent. */
  function ArgLines(indent: string, args: seq<string>): string
    decreases |args|
  {
    if args == [] then "" else indent + " * @arg " + args[0] + "\n" + ArgLines(indent, args[1..])
  }

  /** The opening of a stub: the comment start and the empty brief line. */
  function DocHead(idt: string): string {
    idt + "/**\n" + idt + " * @brief\n"
  }

  /** The tag section: a separator and the tag line, for kinds that have a tag. */
  function DocTypeTag(o: Object, idt: string): string {
    if o.objType in ObjectTypeStringDocMap
    then idt + " *\n" + idt + " * " + ObjectTypeStringDocMap[o.objType] + " " + o.name + "\n"
    else ""
  }

  /** The "arguments" array of the serialised object reads back as the object's own arguments. */
  lemma ArgumentsFromJson(o: Object)
    ensures StringsAt(ToJson(o), "arguments") == o.arguments
  {
    ToJsonTypeAndArguments(o);
    StringArrayRoundTrip(o.arguments);
  }

  /** The argument section: a separator and one line per argument of the JSON's non-empty "arguments" array. */
  function DocArgs(j: Json, idt: string): string {
    var args := StringsAt(j, "arguments");
    if |args| > 0 then idt + " *\n" + ArgLines(idt, args) else ""
  }

  /** The return section, written only when the JSON has a non-empty "return_type" string. */
  function DocReturn(j: Json, idt: string): string {
    match Field(j, "return_type")
    case Some(JString(rt)) => if rt != "" then idt + " *\n" + idt + " * @return " + rt + "\n" else ""
    case _ => ""
  }

  /**
   `getDocForObject`: the stub inserted before the declaration's first
   column, each line indented by `columnOffset - 1` spaces.
   */
  function GetDocForObject(o: Object, columnOffset: nat): (doc: string)
    requires columnOffset >= 1
    ensures doc == "\n" + Indented(Spaces(columnOffset - 1), DocLines(o)) + Spaces(columnOffset - 1)
  {
    DocTextLayout(o, Spaces(columnOffset - 1));
    DocText(o, Spaces(columnOffset - 1))
  }

  /** The stub for a given indent. */
  function DocText(o: Object, idt: string): string {
    "\n" + DocHead(idt) + DocTypeTag(o, idt) + DocArgs(ToJson(o), idt) + DocReturn(ToJson(o), idt) + (idt + " */\n") + idt
  }

  /** The argument lines of a stub, without indent: " * @arg name", one per argument. */
  function ArgLineList(args: seq<string>): (lines: seq<string>)
    ensures |lines| == |args|
    ensures forall i :: 0 <= i < |args| ==> lines[i] == " * @arg " + args[i]
  {
    seq(|args|, i requires 0 <= i < |args| => " * @arg " + args[i])
  }

  /** The lines of a stub, without indent or line break. */
  function DocLines(o: Object): (lines: seq<string>)
    ensures |lines| >= 3 && lines[0] == "/**" && lines[1] == " * @brief" && lines[|lines| - 1] == " */"
  {
    ["/**", " * @brief"]
    + (if o.objType == Class then [" *", " * @class " + o.name] else [])
    + (if |o.arguments| > 0 then [" *"] + ArgLineList(o.arguments)
       else [])
    + [" */"]
  }

  /** Each line prefixed by the indent and followed by a line break. */
  function Indented(indent: string, lines: seq<string>): string
    decreases |lines|
  {
    if lines == [] then "" else indent + lines[0] + "\n" + Indented(indent, lines[1..])
  }

  lemma {:induction false} IndentedAppend(indent: string, a: seq<string>, b: seq<string>)
    ensures Indented(indent, a + b) == Indented(indent, a) + Indented(indent, b)
    decreases |a|
  {
    if a == [] {
      assert a + b == b;
    } else {
      assert (a + b)[0] == a[0];
      assert (a + b)[1..] == a[1..] + b;
      IndentedAppend(indent, a[1..], b);
    }
  }

  lemma {:induction false} ArgLinesIndented(indent: string, args: seq<string>)
    ensures ArgLines(indent, args)
            == Indented(indent, ArgLineList(args))
    decreases |args|
  {
    var lines := ArgLineList(args);
    if args != [] {
      ArgLinesIndented(indent, args[1..]);
      assert lines[1..] == ArgLineList(args[1..]);
    }
  }

  lemma DocHeadLines(idt: string)
    ensures Indented(idt, ["/**", " * @brief"]) == DocHead(idt)
  {
    assert ["/**", " * @brief"][1..] == [" * @brief"];
    assert ["/**", " * @brief"][1..][1..] == [];
  }

  lemma DocTypeTagLines(o: Object, idt: string)
    ensures Indented(idt, if o.objType == Class then [" *", " * @class " + o.name] else []) == DocTypeTag(o, idt)
  {
    if o.objType == Class {
      var line := " * @class " + o.name;
      var cls := [" *", line];
      assert cls[1..] == [line];
      assert cls[1..][1..] == [];
      assert Indented(idt, [line]) == idt + line + "\n";
      assert Indented(idt, cls) == idt + " *" + "\n" + (idt + line + "\n");
      assert ObjectTypeStringDocMap[o.objType] == "@class";
      assert idt + " * " + "@class" + " " + o.name == idt + line;
    }
  }

  lemma DocArgsLines(o: Object, idt: string)
    ensures Indented(idt, if |o.arguments| > 0 then [" *"] + ArgLineList(o.arguments) else []) == DocArgs(ToJson(o), idt)
  {
    ArgumentsFromJson(o);
    if |o.arguments| > 0 {
      IndentedAppend(idt, [" *"], ArgLineList(o.arguments));
      ArgLinesIndented(idt, o.arguments);
      assert [" *"][1..] == [];
    }
  }

  lemma DocTailLines(idt: string)
    ensures Indented(idt, [" */"]) == idt + " */\n"
  {
    assert [" */"][1..] == [];
  }

  /**
   The stub is a line break, then every line of `DocLines` indented by the
   indent, then the indent again, so the declaration that follows keeps
   its column. No return section is ever written.
   */
  lemma DocTextLayout(o: Object, idt: string)
    ensures DocText(o, idt) == "\n" + Indented(idt, DocLines(o)) + idt
  {
    DocLinesSections(o, idt);
    NoReturnSection(o, idt);
    Regroup("\n", DocHead(idt), DocTypeTag(o, idt), DocArgs(ToJson(o), idt), DocReturn(ToJson(o), idt), idt + " */\n", idt);
  }

  /** The indented lines are the head, tag, argument and closing sections in order. */
  lemma DocLinesSections(o: Object, idt: string)
    ensures Indented(idt, DocLines(o)) == DocHead(idt) + DocTypeTag(o, idt) + DocArgs(ToJson(o), idt) + (idt + " */\n")
  {
    var head := ["/**", " * @brief"];
    var cls := if o.objType == Class then [" *", " * @class " + o.name] else [];
    var args := if |o.arguments| > 0 then [" *"] + ArgLineList(o.arguments) else [];
    var tail := [" */"];
    assert DocLines(o) == head + cls + args + tail;
    IndentedAppend(idt, head + cls + args, tail);
    IndentedAppend(idt, head + cls, args);
    IndentedAppend(idt, head, cls);
    DocHeadLines(idt);
    DocTypeTagLines(o, idt);
    DocArgsLines(o, idt);
    DocTailLines(idt);
  }

  /** The serialised object has no "return_type" key, so the return section is always empty. */
  lemma NoReturnSection(o: Object, idt: string)
    ensures DocReturn(ToJson(o), idt) == ""
  {
    assert Field(ToJson(o), "return_type").None?;
  }

  /**
   Dropping the empty return section and regrouping the rest. Kept apart
   from `DocTextLayout` so that the regrouping is proved with the section
   texts abstract.
   */
  lemma Regroup(nl: string, h: string, t: string, a: string, r: string, e: string, idt: string)
    requires r == ""
    ensures nl + h + t + a + r + e + idt == nl + (h + t + a + e) + idt
  {
  }

  /** The stub starts with a line break and ends with the indent. */
  lemma DocFrame(o: Object, columnOffset: nat)
    requires columnOffset >= 1
    ensures var doc := GetDocForObject(o, columnOffset);
            var idt := Spaces(columnOffset - 1);
            |doc| > |idt| && doc[0] == '\n' && doc[|doc| - |idt|..] == idt
  {
  }

  /** The argument lines are one per argument, in order, right after the class section. */
  lemma DocArgLines(o: Object, i: nat)
    requires i < |o.arguments|
    ensures var lines := DocLines(o);
            var offset := if o.objType == Class then 5 else 3;
            offset + i < |lines| && lines[offset + i] == " * @arg " + o.arguments[i]
  {
  }

  /** Each stub line is a fixed line, the class line (fourth, for classes only) or an argument line. */
  lemma DocLineShape(o: Object, i: nat)
    requires i < |DocLines(o)|
    ensures var line := DocLines(o)[i];
            || line == "/**" || line == " * @brief" || line == " *" || line == " */"
            || (o.objType == Class && i == 3 && line == " * @class " + o.name)
            || (exists a :: 0 <= a < |o.arguments| && line == " * @arg " + o.arguments[a])
  {
    var lines := DocLines(o);
    var offset := if o.objType == Class then 5 else 3;
    if offset <= i < |lines| - 1 {
      assert lines[i] == " * @arg " + o.arguments[i - offset];
    }
  }

  /** A "@class" line appears exactly when the object is a class. */
  lemma DocClassLine(o: Object)
    ensures (exists i :: 0 <= i < |DocLines(o)| && IsPrefix(" * @class ", DocLines(o)[i])) <==> o.objType == Class
  {
    var lines := DocLines(o);
    if o.objType == Class {
      assert IsPrefix(" * @class ", lines[3]);
    } else {
      forall i | 0 <= i < |lines| ensures !IsPrefix(" * @class ", lines[i]) {
        DocLineShape(o, i);
        if exists a :: 0 <= a < |o.arguments| && lines[i] == " * @arg " + o.arguments[a] {
          var a :| 0 <= a < |o.arguments| && lines[i] == " * @arg " + o.arguments[a];
          assert lines[i][4] == 'a';
        }
      }
    }
  }

  /** No stub has a "@return" line: the serialised object carries no return type. */
  lemma DocNoReturnLine(o: Object)
    ensures forall i :: 0 <= i < |DocLines(o)| ==> !IsPrefix(" * @return", DocLines(o)[i])
  {
    var lines := DocLines(o);
    forall i | 0 <= i < |lines| ensures !IsPrefix(" * @return", lines[i]) {
      DocLineShape(o, i);
      if exists a :: 0 <= a < |o.arguments| && lines[i] == " * @arg " + o.arguments[a] {
        var a :| 0 <= a < |o.arguments| && lines[i] == " * @arg " + o.arguments[a];
        assert lines[i][4] == 'a';
      } else if o.objType == Class && i == 3 {
        assert lines[i][4] == 'c';
      }
    }
  }

  /** After every line break of `s` comes the indent. */
  predicate LinesIndented(s: string, idt: string) {
    forall k :: 0 <= k < |s| && s[k] == '\n' ==> IsPrefix(idt, s[k + 1..])
  }

  lemma {:induction false} IndentedLinesIndented(idt: string, lines: seq<string>)
    requires NoNewline(idt)
    requires forall i :: 0 <= i < |lines| ==> NoNewline(lines[i])
    ensures LinesIndented("\n" + Indented(idt, lines) + idt, idt)
    decreases |lines|
  {
    var s := "\n" + Indented(idt, lines) + idt;
    if lines == [] {
      forall k | 0 <= k < |s| && s[k] == '\n' ensures IsPrefix(idt, s[k + 1..]) {
        assert s[1..] == idt;
      }
    } else {
      var rest := "\n" + Indented(idt, lines[1..]) + idt;
      IndentedLinesIndented(idt, lines[1..]);
      var n := 1 + |idt| + |lines[0]|;
      assert s == "\n" + idt + lines[0] + rest;
      forall k | 0 <= k < |s| && s[k] == '\n' ensures IsPrefix(idt, s[k + 1..]) {
        if k == 0 {
          assert s[1..][..|idt|] == idt;
        } else if k < n {
          assert false;
        } else {
          assert s[k] == rest[k - n];
          assert s[k + 1..] == rest[k - n + 1..];
        }
      }
    }
  }

  /** Every line of a stub starts with `columnOffset - 1` spaces, provided the name and arguments hold no line break. */
  lemma DocEveryLineIndented(o: Object, columnOffset: nat)
    requires columnOffset >= 1
    requires NoNewline(o.name)
    requires forall i :: 0 <= i < |o.arguments| ==> NoNewline(o.arguments[i])
    ensures LinesIndented(GetDocForObject(o, columnOffset), Spaces(columnOffset - 1))
  {
    var idt := Spaces(columnOffset - 1);
    assert NoNewline(idt);
    DocTextIndented(o, idt);
  }

  lemma DocTextIndented(o: Object, idt: string)
    requires NoNewline(idt)
    requires NoNewline(o.name)
    requires forall i :: 0 <= i < |o.arguments| ==> NoNewline(o.arguments[i])
    ensures LinesIndented(DocText(o, idt), idt)
  {
    DocTextLayout(o, idt);
    DocLinesNoNewline(o);
    IndentedLinesIndented(idt, DocLines(o));
  }

  /** No stub line holds a line break when the name and the arguments hold none. */
  lemma DocLinesNoNewline(o: Object)
    requires NoNewline(o.name)
    requires forall i :: 0 <= i < |o.arguments| ==> NoNewline(o.arguments[i])
    ensures forall i :: 0 <= i < |DocLines(o)| ==> NoNewline(DocLines(o)[i])
  {
    var lines := DocLines(o);
    forall i | 0 <= i < |lines| ensures NoNewline(lines[i]) {
      DocLineShape(o, i);
      if o.objType == Class && i == 3 {
        NoNewlineAppend(" * @class ", o.name);
      } else if exists a :: 0 <= a < |o.arguments| && lines[i] == " * @arg " + o.arguments[a] {
        var a :| 0 <= a < |o.arguments| && lines[i] == " * @arg " + o.arguments[a];
        NoNewlineAppend(" * @arg ", o.arguments[a]);
      }
    }
  }

  /**
   An object receives a stub when it has neither a brief nor a raw comment.
   The raw comment is read back from the JSON; it is the object's own.
   */
  predicate NeedsStub(o: Object)
    ensures NeedsStub(o) <==> o.debrief == "" && o.rawComment == ""
  {
    ToJsonStrings(o);
    !(IsValid(o) || StringOr(ToJson(o), "raw_comment", "") != "")
  }

  /** One insertion: the stub text and the line and column it is inserted before. */
  datatype Stub = Stub(line: nat, column: nat, text: string)

  /** The objects of `objs` in file `path`, in list order. */
  function InFile(objs: seq<Object>, path: string): (r: seq<Object>)
    ensures forall o :: o in r <==> o in objs && o.filePath == path
    decreases |objs|
  {
    if objs == [] then []
    else (if objs[0].filePath == path then [objs[0]] else []) + InFile(objs[1..], path)
  }

  /** Filtering a concatenation is concatenating the filtered parts: list order is kept. */
  lemma {:induction false} InFileAppend(a: seq<Object>, b: seq<Object>, path: string)
    ensures InFile(a + b, path) == InFile(a, path) + InFile(b, path)
    decreases |a|
  {
    if a == [] {
      assert a + b == b;
    } else {
      assert (a + b)[0] == a[0];
      assert (a + b)[1..] == a[1..] + b;
      InFileAppend(a[1..], b, path);
    }
  }

  /** Every element moved up by one. */
  function Shift(s: set<nat>): (r: set<nat>)
    ensures forall i: nat :: i in r <==> i >= 1 && i - 1 in s
  {
    set j | j in s :: j + 1
  }

  /** Moving every element up by one keeps the number of elements. */
  lemma {:induction false} ShiftCard(s: set<nat>)
    ensures |Shift(s)| == |s|
    decreases |s|
  {
    if s != {} {
      var x :| x in s;
      var rest := s - {x};
      ShiftCard(rest);
      assert Shift(s) == Shift(rest) + {x + 1};
    }
  }

  /** A set of positions that holds 0 or not, and otherwise is `t` moved up by one, has `|t|` elements plus one for 0. */
  lemma PositionsSplit(s: set<nat>, t: set<nat>, head: bool)
    requires forall i: nat :: i in s <==> (i == 0 && head) || (i > 0 && i - 1 in t)
    ensures |s| == |t| + (if head then 1 else 0)
  {
    ShiftCard(t);
    var first: set<nat> := if head then {0} else {};
    assert s == first + Shift(t);
    assert first * Shift(t) == {};
  }

  /** The positions of `objs` holding an object of file `path`. */
  function PositionsInFile(objs: seq<Object>, path: string): set<nat> {
    set i: nat | i < |objs| && objs[i].filePath == path
  }

  /** A file's group holds one entry per object of that file: duplicates are kept. */
  lemma {:induction false} InFileCount(objs: seq<Object>, path: string)
    ensures |InFile(objs, path)| == |PositionsInFile(objs, path)|
    decreases |objs|
  {
    if objs != [] {
      var tail := objs[1..];
      InFileCount(tail, path);
      forall i: nat ensures i in PositionsInFile(objs, path) <==> (i == 0 && objs[0].filePath == path) || (i > 0 && i - 1 in PositionsInFile(tail, path)) {
        if 0 < i < |objs| {
          assert objs[i] == tail[i - 1];
        }
      }
      PositionsSplit(PositionsInFile(objs, path), PositionsInFile(tail, path), objs[0].filePath == path);
    }
  }

  /** `docsByFile`: the objects grouped by file path, each group in list order. */
  function GroupByFile(objs: seq<Object>): (groups: map<string, seq<Object>>)
    ensures forall p :: p in groups <==> exists i :: 0 <= i < |objs| && objs[i].filePath == p
    ensures forall p :: p in groups ==> groups[p] == InFile(objs, p) && |groups[p]| > 0
  {
    var paths := set i | 0 <= i < |objs| :: objs[i].filePath;
    var groups := map p | p in paths :: InFile(objs, p);
    assert forall p :: p in groups ==> exists i :: 0 <= i < |objs| && objs[i].filePath == p && objs[i] in groups[p];
    groups
  }

  /** The stub of an object: its own text, inserted at its start line and column. */
  function StubOf(o: Object): Stub
    requires o.startColumn >= 1
  {
    Stub(o.startLine, o.startColumn, GetDocForObject(o, o.startColumn))
  }

  /** The objects of `objs` that need a stub, in list order. */
  function Undocumented(objs: seq<Object>): (r: seq<Object>)
    ensures forall o :: o in r <==> o in objs && NeedsStub(o)
    ensures |r| <= |objs|
    decreases |objs|
  {
    if objs == [] then []
    else (if NeedsStub(objs[0]) then [objs[0]] else []) + Undocumented(objs[1..])
  }

  /** Selecting from a concatenation is concatenating the selections: list order is kept. */
  lemma {:induction false} UndocumentedAppend(a: seq<Object>, b: seq<Object>)
    ensures Undocumented(a + b) == Undocumented(a) + Undocumented(b)
    decreases |a|
  {
    if a == [] {
      assert a + b == b;
    } else {
      assert (a + b)[0] == a[0];
      assert (a + b)[1..] == a[1..] + b;
      UndocumentedAppend(a[1..], b);
    }
  }

  /** The stubs for one file's objects: one per object that needs one, in order. */
  function StubsFor(objs: seq<Object>): (r: seq<Stub>)
    requires forall o :: o in objs && NeedsStub(o) ==> o.startColumn >= 1
    ensures |r| <= |objs|
  {
    var u := Undocumented(objs);
    seq(|u|, i requires 0 <= i < |u| => StubOf(u[i]))
  }

  /** The stubs of a concatenation are the stubs of each part, in order. */
  lemma StubsForAppend(a: seq<Object>, b: seq<Object>)
    requires forall o :: o in a + b && NeedsStub(o) ==> o.startColumn >= 1
    ensures StubsFor(a + b) == StubsFor(a) + StubsFor(b)
  {
    UndocumentedAppend(a, b);
    MappedAppend(Undocumented(a), Undocumented(b), StubsFor(a), StubsFor(b), StubsFor(a + b), StubOf);
  }

  /** A list built element by element from `u + v` is the lists built from `u` and from `v`, joined. */
  lemma MappedAppend<T, U>(u: seq<T>, v: seq<T>, ru: seq<U>, rv: seq<U>, r: seq<U>, f: T --> U)
    requires |ru| == |u| && |rv| == |v| && |r| == |u + v|
    requires forall i :: 0 <= i < |u| ==> f.requires(u[i]) && ru[i] == f(u[i])
    requires forall i :: 0 <= i < |v| ==> f.requires(v[i]) && rv[i] == f(v[i])
    requires forall i :: 0 <= i < |u + v| ==> f.requires((u + v)[i]) && r[i] == f((u + v)[i])
    ensures r == ru + rv
  {
    forall i | 0 <= i < |r| ensures r[i] == (ru + rv)[i] {
      if i < |u| {
        assert (u + v)[i] == u[i];
      } else {
        assert (u + v)[i] == v[i - |u|];
      }
    }
  }

  /** The positions of `objs` holding an object that needs a stub. */
  function PositionsNeedingStub(objs: seq<Object>): set<nat> {
    set i: nat | i < |objs| && NeedsStub(objs[i])
  }

  /** There is exactly one stub per object that needs one. */
  lemma {:induction false} UndocumentedCount(objs: seq<Object>)
    ensures |Undocumented(objs)| == |PositionsNeedingStub(objs)|
    decreases |objs|
  {
    if objs != [] {
      var tail := objs[1..];
      UndocumentedCount(tail);
      forall i: nat ensures i in PositionsNeedingStub(objs) <==> (i == 0 && NeedsStub(objs[0])) || (i > 0 && i - 1 in PositionsNeedingStub(tail)) {
        if 0 < i < |objs| {
          assert objs[i] == tail[i - 1];
        }
      }
      PositionsSplit(PositionsNeedingStub(objs), PositionsNeedingStub(tail), NeedsStub(objs[0]));
    }
  }

  /** A file gets exactly as many stubs as it has objects that need one. */
  lemma StubsForCount(objs: seq<Object>)
    requires forall o :: o in objs && NeedsStub(o) ==> o.startColumn >= 1
    ensures |StubsFor(objs)| == |PositionsNeedingStub(objs)|
  {
    UndocumentedCount(objs);
  }

  /**
   `generateDocumentation`: for every file that could be opened for
   rewriting, the stubs of its objects that have no comment at all. Files
   in `unavailable` (no index, no parse, no rewriter) are skipped.
   */
  function GenerateDocumentation(objs: seq<Object>, unavailable: set<string>): (r: map<string, seq<Stub>>)
    requires forall o :: o in objs && NeedsStub(o) ==> o.startColumn >= 1
    ensures forall p :: p in r <==> p !in unavailable && exists i :: 0 <= i < |objs| && objs[i].filePath == p
    ensures forall p :: p in r ==> r[p] == StubsFor(InFile(objs, p))
  {
    var paths := GroupByFile(objs).Keys;
    map p | p in paths && p !in unavailable :: InFilePlaceable(objs, p); StubsFor(InFile(objs, p))
  }

  /** A file's group inherits the start columns of the objects that need a stub. */
  lemma InFilePlaceable(objs: seq<Object>, path: string)
    requires forall o :: o in objs && NeedsStub(o) ==> o.startColumn >= 1
    ensures forall o :: o in InFile(objs, path) && NeedsStub(o) ==> o.startColumn >= 1
  {
  }

  /** Membership in a list built element by element from `u` by `f`. */
  lemma MappedMember<T, U>(u: seq<T>, r: seq<U>, f: T --> U, s: U)
    requires |r| == |u|
    requires forall i :: 0 <= i < |u| ==> f.requires(u[i]) && r[i] == f(u[i])
    ensures s in r <==> exists x :: x in u && f.requires(x) && s == f(x)
  {
    if s in r {
      var i :| 0 <= i < |r| && r[i] == s;
      assert u[i] in u;
    }
    if exists x :: x in u && f.requires(x) && s == f(x) {
      var x :| x in u && f.requires(x) && s == f(x);
      var i :| 0 <= i < |u| && u[i] == x;
      assert r[i] == s;
    }
  }

  /** A stub belongs to a file's list exactly when it is the stub of one of its objects that needs one. */
  lemma StubsForExact(objs: seq<Object>, s: Stub)
    requires forall o :: o in objs && NeedsStub(o) ==> o.startColumn >= 1
    ensures s in StubsFor(objs) <==>
              exists o :: o in objs && NeedsStub(o) && s == StubOf(o)
  {
    MappedMember(Undocumented(objs), StubsFor(objs), StubOf, s);
  }

  /**
   An object of an available file gets a stub, at its own start line and
   column, exactly when it has neither brief nor raw comment; every stub
   comes from such an object of that file.
   */
  lemma GenerateSelectsUndocumented(objs: seq<Object>, unavailable: set<string>, p: string, s: Stub)
    requires forall o :: o in objs && NeedsStub(o) ==> o.startColumn >= 1
    ensures var r := GenerateDocumentation(objs, unavailable);
            (p in r && s in r[p]) <==>
              p !in unavailable
              && exists o :: o in objs && o.filePath == p && NeedsStub(o)
                             && s == StubOf(o)
  {
    var groups := GroupByFile(objs);
    if p in groups {
      StubsForExact(groups[p], s);
    }
  }
}

=== FILE: json.dfy ===
/**
 The shape of a JSON value as the object (de)serialiser sees it: only the
 value kinds it tests for (`is_string`, `is_number_unsigned`, `is_array`)
 are distinguished; everything else is one of the remaining constructors.
 */
module Json {
  import opened Optional

  datatype Json =
    | JNull
    | JBool(b: bool)
    | JSigned(i: int)
    | JUnsigned(n: nat)
    | JString(s: string)
    | JArray(items: seq<Json>)
    | JObject(fields: map<string, Json>)

  /** `j.contains(key) ? j[key] : nothing`; a non-object value contains no key. */
  function Field(j: Json, key: string): (r: Option<Json>)
    ensures r.Some? <==> j.JObject? && key in j.fields
    ensures r.Some? ==> r.value == j.fields[key]
  {
    match j
    case JObject(fields) => if key in fields then Some(fields[key]) else None
    case _ => None
  }

  /** The string elements of an array, in order; other elements are skipped. */
  function StringItems(items: seq<Json>): (r: seq<string>)
    ensures |r| <= |items|
  {
    if items == [] then []
    else (match items[0] case JString(s) => [s] case _ => []) + StringItems(items[1..])
  }

  /** The strings of the array under `key`; no strings when the key is missing or holds no array. */
  function StringsAt(j: Json, key: string): seq<string> {
    match Field(j, key)
    case Some(JArray(items)) => StringItems(items)
    case _ => []
  }

  /** A list of strings as a JSON array. */
  function StringArray(ss: seq<string>): (r: Json)
    ensures r.JArray? && |r.items| == |ss|
    ensures forall i :: 0 <= i < |ss| ==> r.items[i] == JString(ss[i])
  {
    JArray(seq(|ss|, i requires 0 <= i < |ss| => JString(ss[i])))
  }

  /** Reading back the strings of an array of strings gives the original list. */
  lemma {:induction false} StringArrayRoundTrip(ss: seq<string>)
    ensures StringItems(StringArray(ss).items) == ss
    decreases |ss|
  {
    if ss != [] {
      var items := StringArray(ss).items;
      assert items[1..] == StringArray(ss[1..]).items;
      StringArrayRoundTrip(ss[1..]);
      assert ss == [ss[0]] + ss[1..];
    }
  }
}

=== FILE: manager.dfy ===
/**
 The extraction side of the objects manager: its configuration and state,
 the visitor that turns one cursor into at most one object and decides
 whether to descend, the pre-order walk over the cursor tree, and the
 processing of one header file.
 */
module ObjectsManager {
  import opened Strings
  import opened Optional
  import opened Objects
  import opened Cursors
  import opened Overloads

  /** Parsing modules; `NoModule` is the program's `ModuleType::None`. */
  datatype ModuleType = NoModule | QtOverride

  /** The header file that switches each module on. */
  const ModulesList: map<ModuleType, string> := map[QtOverride := "qt_override.h"]

  /** The module whose header has the given file name, if any. */
  function ModuleForFileName(fileName: string): (r: Option<ModuleType>)
    ensures r.Some? <==> exists t :: t in ModulesList && ModulesList[t] == fileName
    ensures r.Some? ==> r.value in ModulesList && ModulesList[r.value] == fileName
  {
    if fileName == ModulesList[QtOverride] then Some(QtOverride) else None
  }

  /** Only "qt_override.h" is recognised, and it selects `QtOverride`. */
  lemma OnlyQtOverrideRecognised(fileName: string, t: ModuleType)
    ensures ModuleForFileName(fileName) == (if fileName == "qt_override.h" then Some(QtOverride) else None)
    ensures t == NoModule || t == QtOverride
  {
  }

  /** The last component of a `/`-separated path: `path.filename()`. */
  function FileName(path: string): (r: string)
    ensures |r| <= |path|
    ensures '/' !in r
    ensures r == path || (|r| < |path| && path[|path| - |r| - 1] == '/' && path[|path| - |r|..] == r)
    decreases |path|
  {
    if path == [] then ""
    else if path[|path| - 1] == '/' then ""
    else
      var r := FileName(path[..|path| - 1]);
      if r == path[..|path| - 1] then path
      else
        assert path[..|path| - 1][|path| - 1 - |r|..] == path[|path| - 1 - |r|..|path| - 1];
        r + [path[|path| - 1]]
  }

  datatype Manager = Manager(
    wordsBlacklist: seq<string>,
    typesBlacklist: seq<string>,
    objects: seq<Object>,
    currentFilePath: string,
    modPath: string,
    moduleType: ModuleType)

  /** The constructor, with its default arguments: no blacklisted words or kinds and no module path. */
  function NewManager(wordsBlacklist: seq<string> := [], typesBlacklist: seq<string> := [],
                      modPath: string := ""): Manager
  {
    Manager(wordsBlacklist, typesBlacklist, [], "", modPath, NoModule)
  }

  /** The fixed table from native cursor kinds to object kinds; every other kind is `Unknown`. */
  function NativeType(k: CursorKind): ObjectType {
    match k
    case FunctionDecl => Function
    case CxxMethod => Method
    case ConstructorDecl => Constructor
    case DestructorDecl => Destructor
    case FunctionTemplateDecl => FunctionTemplate
    case ClassDecl => Class
    case StructDecl => Struct
    case EnumDecl => Enum
    case VarDecl => Variable
    case NamespaceDecl => Namespace
    case MacroDefinition => Macro
    case OtherKind(_) => Unknown
  }

  /** The table has eleven entries: it is one-to-one on the named kinds and reaches every kind but `Unknown`. */
  lemma NativeTableExact(k1: CursorKind, k2: CursorKind, t: ObjectType)
    ensures NativeType(k1) == Unknown <==> k1.OtherKind?
    ensures NativeType(k1) == NativeType(k2) && !k1.OtherKind? ==> k1 == k2
    ensures t != Unknown ==> exists k :: NativeType(k) == t
  {
    if t != Unknown {
      var k := match t
        case Function => FunctionDecl
        case Method => CxxMethod
        case Constructor => ConstructorDecl
        case Destructor => DestructorDecl
        case FunctionTemplate => FunctionTemplateDecl
        case Class => ClassDecl
        case Struct => StructDecl
        case Enum => EnumDecl
        case Variable => VarDecl
        case Namespace => NamespaceDecl
        case Macro => MacroDefinition
        case Unknown => OtherKind(0);
      assert NativeType(k) == t;
    }
  }

  /** The annotation loop: each `qt_invokable` annotation sets the kind to `Method`; others leave it. */
  function ApplyAnnotations(annotations: seq<string>, t: ObjectType): (r: ObjectType)
    ensures r == (if "qt_invokable" in annotations then Method else t)
    decreases |annotations|
  {
    if annotations == [] then t
    else
      var t' := if annotations[0] == "qt_invokable" then Method else t;
      assert annotations == [annotations[0]] + annotations[1..];
      ApplyAnnotations(annotations[1..], t')
  }

  /** The annotations are read only under the Qt module or on a method or free function. */
  predicate ReadsAnnotations(moduleType: ModuleType, c: Cursor) {
    moduleType == QtOverride || c.kind == CxxMethod || c.kind == FunctionDecl
  }

  /** The kind of an object for a cursor: the annotation override, else the native table. */
  function Classify(moduleType: ModuleType, c: Cursor): (t: ObjectType)
    ensures ReadsAnnotations(moduleType, c) && "qt_invokable" in c.annotations ==> t == Method
    ensures !(ReadsAnnotations(moduleType, c) && "qt_invokable" in c.annotations) ==> t == NativeType(c.kind)
  {
    var overridden := if ReadsAnnotations(moduleType, c) && |c.annotations| > 0
                      then ApplyAnnotations(c.annotations, Unknown) else Unknown;
    if overridden == Unknown then NativeType(c.kind) else overridden
  }

  /** Annotations other than `qt_invokable` (such as `qt_signal` and `qt_slot`) never change the kind. */
  lemma OtherAnnotationsIgnored(moduleType: ModuleType, c: Cursor, others: seq<string>)
    requires "qt_invokable" !in others
    ensures Classify(moduleType, c.(annotations := others)) == NativeType(c.kind)
  {
  }

  /** The kind name compared with the kinds blacklist: `ObjectTypeStringMap.at`, which never fails. */
  function TypeName(t: ObjectType): (s: string)
    ensures s == TypeToString(t)
  {
    StringMapAgrees(t);
    ObjectTypeStringMap[t]
  }

  /** The location check: the cursor is in the main file, has a file, and that file is the one being processed. */
  predicate InCurrentFile(c: Cursor) {
    c.fromMainFile && c.hasFile && c.fileMatches
  }

  predicate TypeBlacklisted(m: Manager, t: ObjectType) {
    TypeName(t) in m.typesBlacklist
  }

  predicate NameBlacklisted(m: Manager, name: string) {
    ContainsAny(name, m.wordsBlacklist)
  }

  /** The kinds whose argument names are collected. */
  predicate FunctionLike(t: ObjectType) {
    t == Function || t == Method || t == Constructor || t == Destructor || t == FunctionTemplate
  }

  /** The cursor yields an object: it is in the current file, of a known kind, and blacklisted by neither list. */
  predicate Accepted(m: Manager, c: Cursor) {
    && InCurrentFile(c)
    && Classify(m.moduleType, c) != Unknown
    && !TypeBlacklisted(m, Classify(m.moduleType, c))
    && !NameBlacklisted(m, c.name)
  }

  /** Whether the walk descends below a cursor. */
  datatype VisitResult = Continue | Recurse

  datatype Visit = Visit(result: VisitResult, obj: Option<Object>)

  /**
   The object the visitor appends for an accepted cursor; its overload
   index is assigned later. It is documented exactly when the cursor has a
   brief comment.
   */
  function BuildObject(m: Manager, c: Cursor): (o: Object)
    ensures IsValid(o) <==> c.briefComment != ""
    ensures o.arguments != [] ==> FunctionLike(o.objType)
  {
    var t := Classify(m.moduleType, c);
    Object(m.currentFilePath, c.name, t, 0, c.startLine, c.startColumn, c.endLine, c.endColumn,
           c.rawComment, c.briefComment, if FunctionLike(t) then c.argumentNames else [],
           c.resultType, Unchanged)
  }

  /** `visitor`: checks in source order, each early exit pruning the subtree. */
  function Visitor(m: Manager, c: Cursor): (v: Visit)
    ensures v.obj.Some? <==> Accepted(m, c)
    ensures v.result == Continue <==>
              || !InCurrentFile(c)
              || TypeBlacklisted(m, Classify(m.moduleType, c))
              || (Classify(m.moduleType, c) != Unknown && NameBlacklisted(m, c.name))
    ensures v.obj.Some? ==>
              var o := v.obj.value;
              && o.filePath == m.currentFilePath && o.name == c.name && o.state == Unchanged
              && o.objType == Classify(m.moduleType, c) && o.objType != Unknown
              && o.startLine == c.startLine && o.startColumn == c.startColumn
              && o.endLine == c.endLine && o.endColumn == c.endColumn
              && o.rawComment == c.rawComment && o.debrief == c.briefComment
              && o.returnType == c.resultType
              && o.arguments == (if FunctionLike(o.objType) then c.argumentNames else [])
  {
    if !c.fromMainFile then Visit(Continue, None)
    else if !c.hasFile then Visit(Continue, None)
    else if !c.fileMatches then Visit(Continue, None)
    else
      var t := Classify(m.moduleType, c);
      if TypeName(t) in m.typesBlacklist then Visit(Continue, None)
      else if t == Unknown then Visit(Recurse, None)
      else if ContainsAny(c.name, m.wordsBlacklist) then Visit(Continue, None)
      else Visit(Recurse, Some(BuildObject(m, c)))
  }

  /** The objects the walk appends for a cursor and, unless pruned, its descendants, in pre-order. */
  function VisitCursor(m: Manager, c: Cursor): (r: seq<Object>)
    ensures forall o :: o in r ==> WellBuilt(m, o)
    decreases c, 1
  {
    var v := Visitor(m, c);
    match v.result
    case Continue => []
    case Recurse => (match v.obj case Some(o) => [o] case None => []) + VisitChildren(m, c.children)
  }

  /** `clang_visitChildren`: the walk over a list of sibling cursors. */
  function VisitChildren(m: Manager, cs: seq<Cursor>): (r: seq<Object>)
    ensures forall o :: o in r ==> WellBuilt(m, o)
    decreases cs, 0
  {
    if cs == [] then [] else VisitCursor(m, cs[0]) + VisitChildren(m, cs[1..])
  }

  /** Every cursor of a tree, in pre-order. */
  function PreOrder(c: Cursor): (r: seq<Cursor>)
    ensures |r| >= 1 && r[0] == c
    decreases c, 1
  {
    [c] + PreOrderAll(c.children)
  }

  function PreOrderAll(cs: seq<Cursor>): seq<Cursor>
    decreases cs, 0
  {
    if cs == [] then [] else PreOrder(cs[0]) + PreOrderAll(cs[1..])
  }

  /** A cursor outside the current file contributes nothing, whatever lies below it. */
  lemma OutsideFilePrunes(m: Manager, c: Cursor)
    requires !InCurrentFile(c)
    ensures VisitCursor(m, c) == []
  {
  }

  /** A cursor whose kind or name is blacklisted contributes nothing, whatever lies below it. */
  lemma BlacklistedPrunes(m: Manager, c: Cursor)
    requires TypeBlacklisted(m, Classify(m.moduleType, c))
             || (Classify(m.moduleType, c) != Unknown && NameBlacklisted(m, c.name))
    ensures VisitCursor(m, c) == []
  {
  }

  /** A cursor of unknown kind yields no object, but the walk still collects its descendants. */
  lemma UnknownDescends(m: Manager, c: Cursor)
    requires InCurrentFile(c) && Classify(m.moduleType, c) == Unknown && !TypeBlacklisted(m, Unknown)
    ensures VisitCursor(m, c) == VisitChildren(m, c.children)
  {
  }

  /** An accepted cursor's object comes first, before any of its descendants' (pre-order). */
  lemma AcceptedComesFirst(m: Manager, c: Cursor)
    requires Accepted(m, c)
    ensures VisitCursor(m, c) == [BuildObject(m, c)] + VisitChildren(m, c.children)
  {
  }

  /** Properties every appended object has. */
  predicate WellBuilt(m: Manager, o: Object) {
    && o.filePath == m.currentFilePath
    && o.state == Unchanged
    && o.objType != Unknown
    && !TypeBlacklisted(m, o.objType)
    && !NameBlacklisted(m, o.name)
    && (!FunctionLike(o.objType) ==> o.arguments == [])
  }

  /**
   Every object the walk appends was built from an accepted cursor of the
   tree: it carries the current file path and state `Unchanged`, and
   argument names only for function-like kinds.
   */
  lemma {:induction false} VisitSound(m: Manager, c: Cursor)
    ensures forall o :: o in VisitCursor(m, c) ==>
              WellBuilt(m, o) && exists d :: d in PreOrder(c) && Accepted(m, d) && o == BuildObject(m, d)
    decreases c, 1
  {
    VisitChildrenSound(m, c.children);
    var v := Visitor(m, c);
    forall o | o in VisitCursor(m, c)
      ensures WellBuilt(m, o) && exists d :: d in PreOrder(c) && Accepted(m, d) && o == BuildObject(m, d)
    {
      if v.obj.Some? && o == v.obj.value {
        assert c in PreOrder(c);
      } else {
        assert o in VisitChildren(m, c.children);
        var d :| d in PreOrderAll(c.children) && Accepted(m, d) && o == BuildObject(m, d);
        assert d in PreOrder(c);
      }
    }
  }

  lemma {:induction false} VisitChildrenSound(m: Manager, cs: seq<Cursor>)
    ensures forall o :: o in VisitChildren(m, cs) ==>
              WellBuilt(m, o) && exists d :: d in PreOrderAll(cs) && Accepted(m, d) && o == BuildObject(m, d)
    decreases cs, 0
  {
    if cs != [] {
      VisitSound(m, cs[0]);
      VisitChildrenSound(m, cs[1..]);
    }
  }

  /** Every cursor of the tree lies in the current file. */
  predicate AllInFile(c: Cursor)
    decreases c
  {
    InCurrentFile(c) && forall i :: 0 <= i < |c.children| ==> AllInFile(c.children[i])
  }

  /** The objects for the cursors of known kind in a list, in order. */
  function Known(m: Manager, cs: seq<Cursor>): seq<Object>
    decreases |cs|
  {
    if cs == [] then []
    else (if Classify(m.moduleType, cs[0]) != Unknown then [BuildObject(m, cs[0])] else [])
         + Known(m, cs[1..])
  }

  lemma {:induction false} KnownAppend(m: Manager, a: seq<Cursor>, b: seq<Cursor>)
    ensures Known(m, a + b) == Known(m, a) + Known(m, b)
    decreases |a|
  {
    if a == [] {
      assert a + b == b;
    } else {
      assert (a + b)[0] == a[0];
      assert (a + b)[1..] == a[1..] + b;
      KnownAppend(m, a[1..], b);
    }
  }

  /**
   With empty blacklists and a tree entirely in the current file, nothing
   is pruned: the walk yields an object for every cursor of known kind,
   in pre-order.
   */
  lemma {:induction false} NoFilterWalksAll(m: Manager, c: Cursor)
    requires m.wordsBlacklist == [] && m.typesBlacklist == []
    requires AllInFile(c)
    ensures VisitCursor(m, c) == Known(m, PreOrder(c))
    decreases c, 1
  {
    NoFilterWalksAllChildren(m, c.children);
    KnownAppend(m, [c], PreOrderAll(c.children));
    assert [c][1..] == [];
  }

  lemma {:induction false} NoFilterWalksAllChildren(m: Manager, cs: seq<Cursor>)
    requires m.wordsBlacklist == [] && m.typesBlacklist == []
    requires forall i :: 0 <= i < |cs| ==> AllInFile(cs[i])
    ensures VisitChildren(m, cs) == Known(m, PreOrderAll(cs))
    decreases cs, 0
  {
    if cs != [] {
      NoFilterWalksAll(m, cs[0]);
      NoFilterWalksAllChildren(m, cs[1..]);
      KnownAppend(m, PreOrder(cs[0]), PreOrderAll(cs[1..]));
    }
  }

  /** Under the constructor's defaults, no cursor of the current file is filtered: known kinds always yield an object. */
  lemma DefaultsFilterNothing(c: Cursor, path: string)
    requires InCurrentFile(c) && NativeType(c.kind) != Unknown
    ensures var m := NewManager().(currentFilePath := path);
            Visitor(m, c).result == Recurse && Visitor(m, c).obj.Some?
  {
  }

  /** An empty entry in the words blacklist matches every name, so no object is ever built. */
  lemma EmptyWordBlocksAll(m: Manager, c: Cursor)
    requires "" in m.wordsBlacklist
    ensures Visitor(m, c).obj.None?
  {
    EmptyWordEverywhere(c.name);
    var k :| 0 <= k < |m.wordsBlacklist| && m.wordsBlacklist[k] == "";
    assert Contains(c.name, m.wordsBlacklist[k]);
  }

  /** Objects built from a well-formed tree have 1-based columns. */
  lemma {:induction false} VisitColumns(m: Manager, cs: seq<Cursor>)
    requires AllWellFormed(cs)
    ensures forall o :: o in VisitChildren(m, cs) ==> o.startColumn >= 1
  {
    VisitChildrenSound(m, cs);
    forall o | o in VisitChildren(m, cs) ensures o.startColumn >= 1 {
      var d :| d in PreOrderAll(cs) && Accepted(m, d) && o == BuildObject(m, d);
      PreOrderWellFormed(cs, d);
    }
  }

  lemma {:induction false} PreOrderWellFormed(cs: seq<Cursor>, d: Cursor)
    requires AllWellFormed(cs) && d in PreOrderAll(cs)
    ensures d.startColumn >= 1
    decreases cs
  {
    if cs != [] {
      if d in PreOrder(cs[0]) {
        if d != cs[0] {
          assert d in PreOrderAll(cs[0].children);
          PreOrderWellFormed(cs[0].children, d);
        }
      } else {
        assert d in PreOrderAll(cs[1..]);
        PreOrderWellFormed(cs[1..], d);
      }
    }
  }

  /** What the front end provides for one header file; `unit` is absent when parsing failed. */
  datatype Frontend = Frontend(indexCreated: bool, modPathExists: bool, unit: Option<seq<Cursor>>)

  datatype Processed = Processed(manager: Manager, error: Option<string>)

  /** Module selection: an existing module path whose file name is a known module header switches that module on. */
  function SelectModule(m: Manager, modPathExists: bool): (t: ModuleType)
    ensures m.modPath != "" && modPathExists && FileName(m.modPath) == "qt_override.h" ==> t == QtOverride
    ensures !(m.modPath != "" && modPathExists && FileName(m.modPath) == "qt_override.h") ==> t == m.moduleType
  {
    if m.modPath != "" && modPathExists then
      match ModuleForFileName(FileName(m.modPath))
      case Some(t) => t
      case None => m.moduleType
    else m.moduleType
  }

  /** Fields other than the overload index agree. */
  predicate SameButIndex(a: Object, b: Object) {
    a == b.(overloadIndex := a.overloadIndex)
  }

  /**
   `processHeaderFile`: select the module, parse, walk the unit's top-level
   cursors appending objects, then renumber overloads across every object
   accumulated so far.
   */
  function ProcessHeaderFile(m: Manager, filePath: string, fe: Frontend): (p: Processed)
    ensures p.error.None? <==> fe.indexCreated && fe.unit.Some?
    ensures !fe.indexCreated ==> p == Processed(m, Some("Failed to create Clang index"))
    ensures fe.indexCreated && fe.unit.None? ==>
              p.error == Some("Failed to parse translation unit for file: " + filePath)
              && p.manager == m.(moduleType := SelectModule(m, fe.modPathExists))
    ensures p.manager.wordsBlacklist == m.wordsBlacklist && p.manager.typesBlacklist == m.typesBlacklist
    ensures p.manager.modPath == m.modPath
    ensures p.error.None? ==>
              var objs := p.manager.objects;
              && p.manager.currentFilePath == filePath
              && |objs| >= |m.objects|
              && (forall i :: 0 <= i < |m.objects| ==> SameButIndex(objs[i], m.objects[i]))
              && (forall i :: |m.objects| <= i < |objs| ==> WellBuilt(p.manager, objs[i]))
              && (forall i, j :: 0 <= i < j < |objs| && objs[i].name == objs[j].name ==>
                                   !Same(objs[i], objs[j]))
    ensures p.error.None? ==>
              var current := m.(moduleType := SelectModule(m, fe.modPathExists), currentFilePath := filePath);
              var found := VisitChildren(current, fe.unit.value);
              && p.manager.moduleType == SelectModule(m, fe.modPathExists)
              && |p.manager.objects| == |m.objects| + |found|
              && (forall k :: 0 <= k < |found| ==> SameButIndex(p.manager.objects[|m.objects| + k], found[k]))
              && forall i :: 0 <= i < |p.manager.objects| ==>
                   p.manager.objects[i].overloadIndex
                   == Count(NamesOf(p.manager.objects)[..i + 1], p.manager.objects[i].name)
  {
    if !fe.indexCreated then Processed(m, Some("Failed to create Clang index"))
    else
      var selected := m.(moduleType := SelectModule(m, fe.modPathExists));
      match fe.unit
      case None => Processed(selected, Some("Failed to parse translation unit for file: " + filePath))
      case Some(roots) =>
        var current := selected.(currentFilePath := filePath);
        var found := VisitChildren(current, roots);
        var objs := SetOverloadCounter(m.objects + found);
        WalkAndNumber(m.objects, current, roots);
        Processed(current.(objects := objs), None)
  }

  /**
   The objects after a walk and a renumbering: old ones keep their content,
   new ones follow in walk order and are well built, every index is the
   occurrence number of its name, and keys are distinct.
   */
  lemma WalkAndNumber(before: seq<Object>, current: Manager, roots: seq<Cursor>)
    ensures var objs := SetOverloadCounter(before + VisitChildren(current, roots));
            && |objs| >= |before|
            && (forall i :: 0 <= i < |before| ==> SameButIndex(objs[i], before[i]))
            && |objs| == |before| + |VisitChildren(current, roots)|
            && (forall k :: 0 <= k < |VisitChildren(current, roots)| ==>
                  SameButIndex(objs[|before| + k], VisitChildren(current, roots)[k]))
            && (forall i :: |before| <= i < |objs| ==> WellBuilt(current, objs[i]))
            && (forall i, j :: 0 <= i < j < |objs| && objs[i].name == objs[j].name ==> !Same(objs[i], objs[j]))
            && (forall i :: 0 <= i < |objs| ==> objs[i].overloadIndex == Count(NamesOf(objs)[..i + 1], objs[i].name))
  {
    var found := VisitChildren(current, roots);
    var all := before + found;
    var objs := SetOverloadCounter(all);
    VisitChildrenSound(current, roots);
    forall i | 0 <= i < |before| ensures SameButIndex(objs[i], before[i]) {
      assert all[i] == before[i];
    }
    forall k | 0 <= k < |found| ensures SameButIndex(objs[|before| + k], found[k]) {
      assert all[|before| + k] == found[k];
    }
    forall i, j | 0 <= i < j < |objs| && objs[i].name == objs[j].name
      ensures !Same(objs[i], objs[j])
    {
      OverloadKeysUnique(all, i, j);
    }
    assert NamesOf(objs) == NamesOf(all);
    forall i | 0 <= i < |objs|
      ensures objs[i].overloadIndex == Count(NamesOf(objs)[..i + 1], objs[i].name)
    {
      OverloadIndexIsOccurrence(all, i);
    }
    forall i | |before| <= i < |objs|
      ensures WellBuilt(current, objs[i])
    {
      var k := i - |before|;
      assert all[i] == found[k];
      assert found[k] in found;
    }
  }
}

=== FILE: object.dfy ===
/**
 The `Object` record: one documentable declaration found in a header, its
 kind and lifecycle enums, the fixed kind-name table, identity, the
 documented test, the field-by-field merge, and the JSON-shaped
 serialise/deserialise pair.
 */
module Objects {
  import opened Optional
  import opened Json

  /** Kind of a declaration; `Unknown` is the sentinel for unmapped kinds. */
  datatype ObjectType =
    | Unknown
    | Function
    | Constructor
    | Method
    | Destructor
    | FunctionTemplate
    | Class
    | Struct
    | Enum
    | Variable
    | Namespace
    | Macro

  /** Lifecycle of an object relative to a previous snapshot. */
  datatype ObjectState = Unchanged | Modified | Added | Removed

  /** Every kind, as listed in the enum. */
  const AllTypes: set<ObjectType> :=
    {Unknown, Function, Constructor, Method, Destructor, FunctionTemplate,
     Class, Struct, Enum, Variable, Namespace, Macro}

  /** The enum is closed: twelve distinct kinds and no others. */
  lemma AllTypesComplete(t: ObjectType)
    ensures t in AllTypes
    ensures |AllTypes| == 12
  {
    var front := {Unknown, Function, Constructor, Method, Destructor, FunctionTemplate};
    var back := {Class, Struct, Enum, Variable, Namespace, Macro};
    assert |front| == 6;
    assert |back| == 6;
    assert front !! back;
    assert AllTypes == front + back;
  }

  /** The static kind-to-name table. */
  const ObjectTypeStringMap: map<ObjectType, string> := map[
    Unknown := "Unknown",
    Function := "Function",
    Constructor := "Constructor",
    Method := "Method",
    Destructor := "Destructor",
    FunctionTemplate := "FunctionTemplate",
    Class := "Class",
    Struct := "Struct",
    Enum := "Enum",
    Variable := "Variable",
    Namespace := "Namespace",
    Macro := "Macro"
  ]

  /** Name of a kind, as `getObjectTypeAsString` spells it. */
  function TypeToString(t: ObjectType): (s: string)
    ensures |s| > 0
    ensures TypeFromString(s) == t
  {
    match t
    case Unknown => "Unknown"
    case Function => "Function"
    case Constructor => "Constructor"
    case Method => "Method"
    case Destructor => "Destructor"
    case FunctionTemplate => "FunctionTemplate"
    case Class => "Class"
    case Struct => "Struct"
    case Enum => "Enum"
    case Variable => "Variable"
    case Namespace => "Namespace"
    case Macro => "Macro"
  }

  /** Kind named by a string; anything unrecognised, "Unknown" included, is `Unknown`. */
  function TypeFromString(s: string): (t: ObjectType)
    ensures t != Unknown ==> t in ObjectTypeStringMap && ObjectTypeStringMap[t] == s
    ensures t == Unknown ==> forall u :: u in ObjectTypeStringMap && u != Unknown ==> ObjectTypeStringMap[u] != s
  {
    if s == "Function" then Function
    else if s == "Constructor" then Constructor
    else if s == "Method" then Method
    else if s == "Destructor" then Destructor
    else if s == "FunctionTemplate" then FunctionTemplate
    else if s == "Class" then Class
    else if s == "Struct" then Struct
    else if s == "Enum" then Enum
    else if s == "Variable" then Variable
    else if s == "Namespace" then Namespace
    else if s == "Macro" then Macro
    else Unknown
  }

  /** Parsing a kind's name gives the kind back. */
  lemma TypeStringRoundTrip(t: ObjectType)
    ensures TypeFromString(TypeToString(t)) == t
  {
  }

  /** A string parses to a known kind exactly when it is that kind's name. */
  lemma TypeFromStringExact(s: string, t: ObjectType)
    requires t != Unknown
    ensures TypeFromString(s) == t <==> s == TypeToString(t)
  {
    TypeStringRoundTrip(t);
  }

  /** A string that names no known kind parses to `Unknown`. */
  lemma UnrecognisedIsUnknown(s: string)
    requires forall t :: t != Unknown ==> TypeToString(t) != s
    ensures TypeFromString(s) == Unknown
  {
    var t := TypeFromString(s);
    if t != Unknown {
      StringMapAgrees(t);
    }
  }

  /** The kind-name table is total, agrees with `TypeToString`, and names kinds injectively. */
  lemma StringMapAgrees(t: ObjectType)
    ensures t in ObjectTypeStringMap
    ensures ObjectTypeStringMap[t] == TypeToString(t)
    ensures forall u :: u in ObjectTypeStringMap && ObjectTypeStringMap[u] == ObjectTypeStringMap[t] ==> u == t
  {
    forall u | u in ObjectTypeStringMap && ObjectTypeStringMap[u] == ObjectTypeStringMap[t]
      ensures u == t
    {
      TypeStringRoundTrip(u);
      TypeStringRoundTrip(t);
    }
  }

  /** Every state, as listed in the enum. */
  const AllStates: set<ObjectState> := {Unchanged, Modified, Added, Removed}

  /** The state enum is closed: four distinct states and no others. */
  lemma AllStatesComplete(s: ObjectState)
    ensures s in AllStates
    ensures |AllStates| == 4
  {
    assert AllStates == {Unchanged, Modified} + {Added, Removed};
  }

  /** `getStateAsString`: the fallback "Unknown" is unreachable, every state has one of four names. */
  function StateToString(s: ObjectState): (r: string)
    ensures r in {"Unchanged", "Modified", "Added", "Removed"}
  {
    match s
    case Unchanged => "Unchanged"
    case Modified => "Modified"
    case Added => "Added"
    case Removed => "Removed"
  }

  /** Distinct states have distinct names, so the state can be read back from its name. */
  lemma StateStringInjective(s1: ObjectState, s2: ObjectState)
    ensures StateToString(s1) == StateToString(s2) <==> s1 == s2
  {
  }

  /**
   One declaration. Locations and the overload index are `size_t` in the
   program; they are unbounded here.
   */
  datatype Object = Object(
    filePath: string,
    name: string,
    objType: ObjectType,
    overloadIndex: nat,
    startLine: nat,
    startColumn: nat,
    endLine: nat,
    endColumn: nat,
    rawComment: string,
    debrief: string,
    arguments: seq<string>,
    returnType: string,
    state: ObjectState)

  /** `operator==`: two objects are the same declaration. */
  predicate Same(a: Object, b: Object)
    ensures Same(a, b) <==>
              a.(startLine := b.startLine, startColumn := b.startColumn, endLine := b.endLine,
                 endColumn := b.endColumn, rawComment := b.rawComment, debrief := b.debrief,
                 arguments := b.arguments, returnType := b.returnType, state := b.state) == b
  {
    a.filePath == b.filePath && a.name == b.name && a.objType == b.objType
    && a.overloadIndex == b.overloadIndex
  }

  /** Identity ignores every field outside the key: relocating, re-commenting or restating an object keeps it the same. */
  lemma SameIgnoresContent(a: Object, startLine: nat, startColumn: nat, endLine: nat, endColumn: nat,
                           rawComment: string, debrief: string, arguments: seq<string>, returnType: string,
                           state: ObjectState)
    ensures Same(a, a.(startLine := startLine, startColumn := startColumn, endLine := endLine,
                      endColumn := endColumn, rawComment := rawComment, debrief := debrief,
                      arguments := arguments, returnType := returnType, state := state))
  {
  }

  /** `Same` is an equivalence relation. */
  lemma SameIsEquivalence(a: Object, b: Object, c: Object)
    ensures Same(a, a)
    ensures Same(a, b) ==> Same(b, a)
    ensures Same(a, b) && Same(b, c) ==> Same(a, c)
  {
  }

  /** `isValid`: the object is documented. */
  predicate IsValid(o: Object)
  {
    o.debrief != ""
  }

  /** The `isModified` helper: take the new value, raising the flag when it differs. */
  function IsModified<T(==)>(current: T, incoming: T, flag: bool): (r: (T, bool))
    ensures r.0 == incoming
    ensures r.1 <==> flag || current != incoming
  {
    if current != incoming then (incoming, true) else (current, flag)
  }

  /** The fields whose change counts as a content change. */
  predicate ContentDiffers(a: Object, b: Object) {
    a.filePath != b.filePath || a.name != b.name || a.objType != b.objType
    || a.rawComment != b.rawComment || a.debrief != b.debrief || a.arguments != b.arguments
  }

  /** `a.updateObject(b)`: copy `b`'s fields into `a` one by one and promote an unchanged object whose content changed. */
  function UpdateObject(a: Object, b: Object): (r: Object)
    ensures r.filePath == b.filePath && r.name == b.name && r.objType == b.objType
    ensures r.startLine == b.startLine && r.startColumn == b.startColumn
    ensures r.endLine == b.endLine && r.endColumn == b.endColumn
    ensures r.rawComment == b.rawComment && r.debrief == b.debrief && r.arguments == b.arguments
    ensures r.overloadIndex == a.overloadIndex && r.returnType == a.returnType
    ensures r.state == Modified <==> a.state == Modified || (a.state == Unchanged && ContentDiffers(a, b))
    ensures r.state != Modified ==> r.state == a.state
  {
    var (filePath, m1) := IsModified(a.filePath, b.filePath, false);
    var (name, m2) := IsModified(a.name, b.name, m1);
    var (objType, m3) := IsModified(a.objType, b.objType, m2);
    var (rawComment, m4) := IsModified(a.rawComment, b.rawComment, m3);
    var (debrief, m5) := IsModified(a.debrief, b.debrief, m4);
    var (arguments, modified) := IsModified(a.arguments, b.arguments, m5);
    var state := if modified && a.state == Unchanged then Modified else a.state;
    a.(filePath := filePath, name := name, objType := objType,
       startLine := b.startLine, startColumn := b.startColumn,
       endLine := b.endLine, endColumn := b.endColumn,
       rawComment := rawComment, debrief := debrief, arguments := arguments, state := state)
  }

  /** Only an `Unchanged` object can change state; `Added`, `Modified` and `Removed` stay put. */
  lemma UpdateKeepsSettledState(a: Object, b: Object)
    requires a.state != Unchanged
    ensures UpdateObject(a, b).state == a.state
  {
  }

  /** A change of location alone leaves the state alone. */
  lemma UpdateLocationOnly(a: Object, startLine: nat, startColumn: nat, endLine: nat, endColumn: nat)
    ensures UpdateObject(a, a.(startLine := startLine, startColumn := startColumn,
                               endLine := endLine, endColumn := endColumn)).state == a.state
  {
  }

  /** A merge makes the object documented exactly when the incoming object is. */
  lemma UpdateTakesValidity(a: Object, b: Object)
    ensures IsValid(UpdateObject(a, b)) <==> IsValid(b)
  {
  }

  /** Merging the same object twice is the same as merging it once. */
  lemma UpdateIdempotent(a: Object, b: Object)
    ensures UpdateObject(UpdateObject(a, b), b) == UpdateObject(a, b)
  {
  }

  /** A merge keeps the identity of the incoming object except for the overload index it keeps from `a`. */
  lemma UpdateKeepsIdentity(a: Object, b: Object)
    requires a.overloadIndex == b.overloadIndex
    ensures Same(UpdateObject(a, b), b)
  {
  }

  /** `getObjectAsJSON`: every field except the return type and the state. */
  function ToJson(o: Object): (j: Json)
    ensures j.JObject?
    ensures "return_type" !in j.fields && "state" !in j.fields
  {
    JObject(map[
      "file_path" := JString(o.filePath),
      "name" := JString(o.name),
      "type" := JString(TypeToString(o.objType)),
      "overload_index" := JUnsigned(o.overloadIndex),
      "start_line" := JUnsigned(o.startLine),
      "start_column" := JUnsigned(o.startColumn),
      "end_line" := JUnsigned(o.endLine),
      "end_column" := JUnsigned(o.endColumn),
      "raw_comment" := JString(o.rawComment),
      "debrief" := JString(o.debrief),
      "arguments" := StringArray(o.arguments)
    ])
  }

  /**
   The values the JSON constructor leaves in scalar members whose key is
   absent or ill-typed: those members are default-initialised, so their
   content is whatever the storage held. String and list members start empty.
   */
  datatype Uninitialised = Uninitialised(
    objType: ObjectType,
    overloadIndex: nat,
    startLine: nat,
    startColumn: nat,
    endLine: nat,
    endColumn: nat,
    state: ObjectState)

  function StringOr(j: Json, key: string, default: string): string {
    match Field(j, key)
    case Some(JString(s)) => s
    case _ => default
  }

  function UnsignedOr(j: Json, key: string, default: nat): nat {
    match Field(j, key)
    case Some(JUnsigned(n)) => n
    case _ => default
  }

  /** The JSON constructor: each field is read only when its key is present with the expected kind. */
  function FromJson(j: Json, u: Uninitialised): (o: Object)
    ensures !j.JObject? ==> o == Object("", "", u.objType, u.overloadIndex, u.startLine, u.startColumn,
                                        u.endLine, u.endColumn, "", "", [], "", u.state)
    ensures o.returnType == "" && o.state == u.state
  {
    Object(
      filePath := StringOr(j, "file_path", ""),
      name := StringOr(j, "name", ""),
      objType := (match Field(j, "type") case Some(JString(s)) => TypeFromString(s) case _ => u.objType),
      overloadIndex := UnsignedOr(j, "overload_index", u.overloadIndex),
      startLine := UnsignedOr(j, "start_line", u.startLine),
      startColumn := UnsignedOr(j, "start_column", u.startColumn),
      endLine := UnsignedOr(j, "end_line", u.endLine),
      endColumn := UnsignedOr(j, "end_column", u.endColumn),
      rawComment := StringOr(j, "raw_comment", ""),
      debrief := StringOr(j, "debrief", ""),
      arguments := StringsAt(j, "arguments"),
      returnType := "",
      state := u.state)
  }

  /**
   Deserialising a serialised object gives back the same declaration with
   the same locations, comments and arguments; only the return type and the
   state are lost, whatever the uninitialised members held.
   */
  lemma {:induction false} JsonRoundTrip(o: Object, u: Uninitialised)
    ensures FromJson(ToJson(o), u) == o.(returnType := "", state := u.state)
    ensures Same(FromJson(ToJson(o), u), o)
  {
    ToJsonStrings(o);
    ToJsonNumbers(o, u);
    ToJsonTypeAndArguments(o);
    TypeStringRoundTrip(o.objType);
    StringArrayRoundTrip(o.arguments);
  }

  lemma ToJsonStrings(o: Object)
    ensures StringOr(ToJson(o), "file_path", "") == o.filePath
    ensures StringOr(ToJson(o), "name", "") == o.name
    ensures StringOr(ToJson(o), "raw_comment", "") == o.rawComment
    ensures StringOr(ToJson(o), "debrief", "") == o.debrief
  {
  }

  lemma ToJsonNumbers(o: Object, u: Uninitialised)
    ensures UnsignedOr(ToJson(o), "overload_index", u.overloadIndex) == o.overloadIndex
    ensures UnsignedOr(ToJson(o), "start_line", u.startLine) == o.startLine
    ensures UnsignedOr(ToJson(o), "start_column", u.startColumn) == o.startColumn
    ensures UnsignedOr(ToJson(o), "end_line", u.endLine) == o.endLine
    ensures UnsignedOr(ToJson(o), "end_column", u.endColumn) == o.endColumn
  {
  }

  lemma ToJsonTypeAndArguments(o: Object)
    ensures Field(ToJson(o), "type") == Some(JString(TypeToString(o.objType)))
    ensures Field(ToJson(o), "arguments") == Some(StringArray(o.arguments))
  {
  }
}

=== FILE: option.dfy ===
/** An optional value: a map lookup that may miss, an error that may be absent. */
module Optional {
  datatype Option<T> = None | Some(value: T)
}

=== FILE: overloads.dfy ===
/**
 Overload numbering: after each header is processed, every object gets an
 index telling apart objects that share a name. The numbering is 1-based,
 groups by name alone (not by file or kind) and runs over every object
 accumulated so far, in list order.
 */
module Overloads {
  import opened Objects

  /** How many entries of `names` equal `name`. */
  function Count(names: seq<string>, name: string): nat
    decreases |names|
  {
    if names == [] then 0
    else Count(names[..|names| - 1], name) + (if names[|names| - 1] == name then 1 else 0)
  }

  /** The names of the objects, in list order. */
  function NamesOf(objs: seq<Object>): (r: seq<string>)
    ensures |r| == |objs| && forall i :: 0 <= i < |objs| ==> r[i] == objs[i].name
  {
    seq(|objs|, i requires 0 <= i < |objs| => objs[i].name)
  }

  /**
   The numbering loop over the names: the counter of the name is
   incremented and becomes its index. A name missing from `counters`
   restarts at 0.
   */
  function Number(names: seq<string>, counters: map<string, nat>): (r: seq<nat>)
    ensures |r| == |names|
    decreases |names|
  {
    if names == [] then []
    else
      var key := names[0];
      var overload := if key in counters then counters[key] + 1 else 0;
      [overload] + Number(names[1..], counters[key := overload])
  }

  /**
   A name gets index 0 exactly at its first occurrence, and only when it
   has no counter yet; every later occurrence, and every name that already
   has a counter, gets an index of at least 1.
   */
  lemma {:induction false} NumberZeroAtFirst(names: seq<string>, counters: map<string, nat>, i: nat)
    requires i < |names|
    ensures Number(names, counters)[i] == 0 <==> names[i] !in counters && names[i] !in names[..i]
    decreases |names|
  {
    var key := names[0];
    var overload := if key in counters then counters[key] + 1 else 0;
    if i > 0 {
      NumberZeroAtFirst(names[1..], counters[key := overload], i - 1);
      assert names[..i] == [key] + names[1..][..i - 1];
      assert names[1..][i - 1] == names[i];
    }
  }

  /** `setOverloadCounter`: every name seen gets a counter at 0, then the list is numbered in order. */
  function SetOverloadCounter(objs: seq<Object>): (r: seq<Object>)
    ensures |r| == |objs|
    ensures forall i :: 0 <= i < |r| ==> r[i] == objs[i].(overloadIndex := r[i].overloadIndex)
  {
    var names := NamesOf(objs);
    var indices := Number(names, map n | n in names :: 0);
    seq(|objs|, i requires 0 <= i < |objs| => objs[i].(overloadIndex := indices[i]))
  }

  lemma CountAppend(names: seq<string>, x: string, name: string)
    ensures Count(names + [x], name) == Count(names, name) + (if x == name then 1 else 0)
  {
    assert (names + [x])[..|names|] == names;
  }

  /** Counting over a longer prefix never gives less. */
  lemma {:induction false} CountPrefixMonotone(names: seq<string>, a: nat, b: nat, name: string)
    requires a <= b <= |names|
    ensures Count(names[..a], name) <= Count(names[..b], name)
    decreases b - a
  {
    if a < b {
      CountPrefixMonotone(names, a, b - 1, name);
      assert names[..b][..b - 1] == names[..b - 1];
    }
  }

  /** Bumping the counter of the head name keeps every pending counter equal to the count so far. */
  lemma CountersAdvance(done: seq<string>, rest: seq<string>, counters: map<string, nat>)
    requires rest != []
    requires forall n :: n in rest ==> n in counters && counters[n] == Count(done, n)
    ensures var counters' := counters[rest[0] := counters[rest[0]] + 1];
            forall n :: n in rest[1..] ==> n in counters' && counters'[n] == Count(done + [rest[0]], n)
  {
    forall n | n in rest[1..] {
      CountAppend(done, rest[0], n);
    }
  }

  /** Position `i` of a numbering, from the numbering of the tail. */
  lemma NumberAt(done: seq<string>, rest: seq<string>, counters: map<string, nat>, i: nat)
    requires i < |rest| && rest[0] in counters && counters[rest[0]] == Count(done, rest[0])
    requires i > 0 ==> Number(rest[1..], counters[rest[0] := counters[rest[0]] + 1])[i - 1]
                       == Count(done + [rest[0]] + rest[1..][..i], rest[i])
    ensures Number(rest, counters)[i] == Count(done + rest[..i + 1], rest[i])
  {
    var key := rest[0];
    var r := Number(rest, counters);
    assert r == [counters[key] + 1] + Number(rest[1..], counters[key := counters[key] + 1]);
    if i == 0 {
      CountAppend(done, key, key);
      assert rest[..1] == [key];
    } else {
      assert done + [key] + rest[1..][..i] == done + rest[..i + 1];
    }
  }

  /** The counter the loop keeps for every pending name is the count of that name so far. */
  lemma {:induction false} NumberCounts(done: seq<string>, rest: seq<string>, counters: map<string, nat>)
    requires forall n :: n in rest ==> n in counters && counters[n] == Count(done, n)
    ensures forall i :: 0 <= i < |rest| ==> Number(rest, counters)[i] == Count(done + rest[..i + 1], rest[i])
    decreases |rest|
  {
    if rest != [] {
      var key := rest[0];
      CountersAdvance(done, rest, counters);
      NumberCounts(done + [key], rest[1..], counters[key := counters[key] + 1]);
      forall i | 0 <= i < |rest|
        ensures Number(rest, counters)[i] == Count(done + rest[..i + 1], rest[i])
      {
        if i > 0 {
          assert rest[1..][i - 1] == rest[i];
          assert rest[1..][..i - 1 + 1] == rest[1..][..i];
        }
        NumberAt(done, rest, counters, i);
      }
    }
  }

  /** The object at position `i` gets the number of same-named objects up to and including it. */
  lemma OverloadIndexIsOccurrence(objs: seq<Object>, i: nat)
    requires i < |objs|
    ensures SetOverloadCounter(objs)[i].overloadIndex == Count(NamesOf(objs)[..i + 1], objs[i].name)
  {
    var names := NamesOf(objs);
    var seeded := map n | n in names :: 0;
    NumberCounts([], names, seeded);
    var indices := Number(names, seeded);
    assert indices[i] == Count([] + names[..i + 1], names[i]);
    assert [] + names[..i + 1] == names[..i + 1];
    assert SetOverloadCounter(objs)[i].overloadIndex == indices[i];
  }

  /** Every k from 1 to the number of occurrences of `name` is the running count at one of them. */
  lemma {:induction false} OccurrenceExists(names: seq<string>, name: string, k: nat)
    requires 1 <= k <= Count(names, name)
    ensures exists i :: 0 <= i < |names| && names[i] == name && Count(names[..i + 1], name) == k
    decreases |names|
  {
    var last := |names| - 1;
    var front := names[..last];
    if names[last] == name && k == Count(names, name) {
      assert names[..last + 1] == names;
    } else {
      OccurrenceExists(front, name, k);
      var i :| 0 <= i < |front| && front[i] == name && Count(front[..i + 1], name) == k;
      assert front[..i + 1] == names[..i + 1];
    }
  }

  /** The numbers 1..n. */
  function Upto(n: nat): (r: set<nat>)
    ensures forall k :: k in r <==> 1 <= k <= n
  {
    if n == 0 then {} else Upto(n - 1) + {n}
  }

  /** N objects sharing a name receive exactly the indices 1..N. */
  lemma OverloadIndicesDense(objs: seq<Object>, name: string)
    ensures var r := SetOverloadCounter(objs);
            (set i | 0 <= i < |r| && r[i].name == name :: r[i].overloadIndex) == Upto(Count(NamesOf(objs), name))
  {
    var r := SetOverloadCounter(objs);
    var used := set i | 0 <= i < |r| && r[i].name == name :: r[i].overloadIndex;
    var dense := Upto(Count(NamesOf(objs), name));
    forall x | x in used ensures x in dense {
      var i :| 0 <= i < |r| && r[i].name == name && r[i].overloadIndex == x;
      IndexWithinCount(objs, i);
    }
    forall k | k in dense ensures k in used {
      var i := IndexReached(objs, name, k);
      assert r[i].name == name;
    }
  }

  /** The index of an object lies between 1 and the number of objects of its name. */
  lemma IndexWithinCount(objs: seq<Object>, i: nat)
    requires i < |objs|
    ensures 1 <= SetOverloadCounter(objs)[i].overloadIndex <= Count(NamesOf(objs), objs[i].name)
  {
    OverloadIndexIsOccurrence(objs, i);
    RunningCountBounds(NamesOf(objs), i);
  }

  /** The running count at an occurrence is at least 1 and at most the total. */
  lemma RunningCountBounds(names: seq<string>, i: nat)
    requires i < |names|
    ensures 1 <= Count(names[..i + 1], names[i]) <= Count(names, names[i])
  {
    RunningCountPositive(names, i);
    PrefixCountBounded(names, i + 1, names[i]);
  }

  lemma RunningCountPositive(names: seq<string>, i: nat)
    requires i < |names|
    ensures Count(names[..i + 1], names[i]) >= 1
  {
    var upto := names[..i + 1];
    assert upto[|upto| - 1] == names[i];
  }

  lemma PrefixCountBounded(names: seq<string>, a: nat, name: string)
    requires a <= |names|
    ensures Count(names[..a], name) <= Count(names, name)
  {
    CountPrefixMonotone(names, a, |names|, name);
    assert names[..|names|] == names;
  }

  /** Every number from 1 to the number of objects of a name is the index of one of them. */
  lemma IndexReached(objs: seq<Object>, name: string, k: nat) returns (i: nat)
    requires 1 <= k <= Count(NamesOf(objs), name)
    ensures i < |objs| && objs[i].name == name && SetOverloadCounter(objs)[i].overloadIndex == k
  {
    var names := NamesOf(objs);
    OccurrenceExists(names, name, k);
    i :| 0 <= i < |names| && names[i] == name && Count(names[..i + 1], name) == k;
    OverloadIndexIsOccurrence(objs, i);
  }

  /** After numbering, two different positions never hold the same (name, index) pair, hence never the same identity. */
  lemma OverloadKeysUnique(objs: seq<Object>, i: nat, j: nat)
    requires i < j < |objs|
    ensures var r := SetOverloadCounter(objs);
            r[i].name == r[j].name ==> r[i].overloadIndex < r[j].overloadIndex && !Same(r[i], r[j])
  {
    var r := SetOverloadCounter(objs);
    var names := NamesOf(objs);
    if r[i].name == r[j].name {
      var n := objs[j].name;
      OverloadIndexIsOccurrence(objs, i);
      OverloadIndexIsOccurrence(objs, j);
      CountPrefixMonotone(names, i + 1, j, n);
      assert names[..j + 1] == names[..j] + [n];
      CountAppend(names[..j], n, n);
    }
  }

  /** Numbering twice is numbering once: the indices depend only on the names. */
  lemma OverloadIdempotent(objs: seq<Object>)
    ensures SetOverloadCounter(SetOverloadCounter(objs)) == SetOverloadCounter(objs)
  {
    var r := SetOverloadCounter(objs);
    assert NamesOf(r) == NamesOf(objs);
    var rr := SetOverloadCounter(r);
    forall i | 0 <= i < |r| ensures rr[i] == r[i] {
      OverloadIndexIsOccurrence(objs, i);
      OverloadIndexIsOccurrence(r, i);
    }
  }
}

=== FILE: strings.dfy ===
/**
 String helpers shared by the model: substring containment (the
 `std::string::contains` the words blacklist relies on), runs of spaces
 (the indentation of generated comments) and a newline-free predicate.
 */
module Strings {

  /** `w` is a prefix of `s`. */
  predicate IsPrefix(w: string, s: string) {
    |w| <= |s| && s[..|w|] == w
  }

  /** `w` occurs in `s` starting at index `i`. */
  predicate OccursAt(s: string, w: string, i: nat) {
    i + |w| <= |s| && s[i..i + |w|] == w
  }

  /** `s.contains(w)`: `w` occurs somewhere in `s`; the empty word occurs everywhere. */
  predicate Contains(s: string, w: string)
    decreases |s|
  {
    IsPrefix(w, s) || (|s| > 0 && Contains(s[1..], w))
  }

  /** The recursive search agrees with the positional definition of containment. */
  lemma {:induction false} ContainsIffOccurs(s: string, w: string)
    ensures Contains(s, w) <==> exists i: nat :: OccursAt(s, w, i)
    decreases |s|
  {
    if IsPrefix(w, s) {
      assert OccursAt(s, w, 0);
    } else if |s| == 0 {
    } else {
      ContainsIffOccurs(s[1..], w);
      if exists i: nat :: OccursAt(s[1..], w, i) {
        var i: nat :| OccursAt(s[1..], w, i);
        assert s[i + 1..i + 1 + |w|] == s[1..][i..i + |w|];
        assert OccursAt(s, w, i + 1);
      }
      if exists i: nat :: OccursAt(s, w, i) {
        var i: nat :| OccursAt(s, w, i);
        assert i != 0;
        assert s[1..][i - 1..i - 1 + |w|] == s[i..i + |w|];
        assert OccursAt(s[1..], w, i - 1);
      }
    }
  }

  /** Some entry of `words` occurs in `s`. */
  predicate ContainsAny(s: string, words: seq<string>) {
    exists k :: 0 <= k < |words| && Contains(s, words[k])
  }

  /** Every string contains the empty word, so an empty blacklist entry matches every name. */
  lemma {:induction false} EmptyWordEverywhere(s: string)
    ensures Contains(s, "")
  {
    assert IsPrefix("", s);
  }

  /** `n` space characters: `std::string(n, ' ')`. */
  function Spaces(n: nat): (r: string)
    ensures |r| == n
    ensures forall i :: 0 <= i < n ==> r[i] == ' '
  {
    seq(n, _ => ' ')
  }

  /** The string holds no line break. */
  predicate NoNewline(s: string) {
    forall i :: 0 <= i < |s| ==> s[i] != '\n'
  }

  lemma NoNewlineAppend(a: string, b: string)
    requires NoNewline(a) && NoNewline(b)
    ensures NoNewline(a + b)
  {
    forall i | 0 <= i < |a + b| ensures (a + b)[i] != '\n' {
      if i >= |a| {
        assert (a + b)[i] == b[i - |a|];
      }
    }
  }
}
